=== FILE: README.md ===
# bp-ann in Dafny

A model of the discrete core of bp-ann. bp-ann is a small C++ feed-forward neural network that learns to classify 2-D points by backpropagation. The model covers the following parts of the program.

- **Layers** (`layers/*.h`):
  - The `Layer` base class: how widths are inherited, how a layer is linked in as its predecessor's successor, the construction error, and the forward caches.
  - The identity `InputLayer` and the feature-appending `MappingInputLayer`.
  - The tanh `FullyConnectedLayer`: forward sum, `getWeight`, the hidden delta and the gradient-descent update.
  - The `OutputLayer`: a delta seeded from the error, then the same update.
- **Trainer** (`train/SimpleTrainer.h`):
  - `startTraining`: forward buffer threading in vector order, then the in-place error, then backward buffer threading in reverse order, repeated `TrainingTimes` times.
- **Program glue** (`main.cpp`):
  - `setIndex`, the one-hot target encoder;
  - `realFunction`, the region oracle;
  - `initializeNetwork`: the construction of the four-layer network and the walk along `nextLayer` that collects it;
  - the test loop of `testLayers`, with its argmax classifier and success count;
  - the error and scalar-loss lambdas given to the trainer.

## How it is modelled

- **Numbers.**
  - Doubles are `real`.
  - `std::tanh` is an uninterpreted `Activation`.
  - The mapping layer's feature functions are known by their registration position (`FeatureId`). A `FeatureEval` parameter evaluates them.
  - `MathUtils::rand1` is a draw source `rand: nat -> real`, indexed by draw number. Construction threads a draw counter, so each initial weight and bias uses its own draw.
  - The unspecified contents of a fresh `new double[n]` buffer are an `Uninit` parameter.
- **Layers are values.** A layer is a `Layer` datatype: a `Kind` tag (Input / Mapping / FullyConnected / Output, holding mappings or parameters), the two widths, and the two caches. Forward and backward are pure functions that return the updated layer together with the buffer they filled (`Step`).
- **The linked chain.**
  - The chain built by the constructors is a store `seq<Node>` in allocation order. Each node holds a layer and its `nextLayer` link as `Option<nat>`, with `None` standing for null.
  - `StoreOk` is the chain-width invariant: every link points at a later layer whose input width is the linking layer's output width.
  - The trainer works on a `seq<Layer>` in which adjacency is position. `ForwardRunnable` states what each position needs for a forward pass to stay in bounds; `Runnable` adds what a backward pass needs. The forward members and the test loop ask only for `ForwardRunnable`; the trainer asks for `Runnable`.
- **Exceptions are results.** A thrown exception is a `Result` error: `InvalidArgument`, `OutOfRange`, or `BadArrayNewLength` (from `new double[n]` with a negative `n`).
- **The bias quirk is kept as written.** The forward sum adds `bias[i]` once per input term. `PreActivationIsDotPlusBias` proves that this equals the dot product plus `InputWidth * bias[i]`.
- **Backward reads updated weights.** Backward runs in reverse order, so a hidden layer reads its successor's weights after that successor has already updated them. `BackwardPassStepsEachLayer` states this: each layer's backward step is taken against its successor as that successor ends the pass.
- **Pass records.** A forward or backward pass returns a `Pass`, which records the order in which it visited the layers and the buffer each layer received. `ForwardStepped` and `BackwardStepped` use that record to say that layer `m` ended the pass as its own step on its received buffer left it.

## Model

| member | source | states |
|---|---|---|
| Layers.LayerWidths | layers/Layer.h:13-24 | With a predecessor, the input width is the predecessor's output width and the argument is ignored. A root with a negative input width raises invalid_argument, and width 0 is accepted. A negative output width fails the cache allocation. |
| Layers.CacheForward | layers/Layer.h:30-36 | The caches hold `input[0..InputWidth)` and `output[0..OutputWidth)`. Kind and widths are unchanged, and the cache lengths equal the widths. |
| Layers.Attach | layers/Layer.h:13-16 | The predecessor's link now designates the new layer, and the new layer's own link is null. No other node changes. |
| Layers.AttachKeepsStoreOk | layers/Layer.h:13-24 | Linking a well-formed layer whose input width equals its predecessor's output width keeps the chain-width invariant. |
| Layers.NewLayer | layers/Layer.h:13-24 | A new layer has caches of exactly its two widths and a null successor. The predecessor now links to it and is otherwise unchanged. |
| Layers.GetNextLayer | layers/Layer.h:39-41 | Returns the layer's own `nextLayer` link. That link is null, or designates a later-built layer whose input width is this layer's output width. |
| Layers.NewLayerIsNextLayer | layers/Layer.h:13-17 | After a layer is built with predecessor `k`, `getNextLayer` of `k` designates the new layer, the new layer's successor is null, and every other layer keeps its successor. |
| InputLayers.NewInputLayer | layers/InputLayer.h:13 | Gives a root layer with input width = output width = the argument. A negative argument raises invalid_argument. The chain invariant is kept. |
| InputLayers.NewInputLayerWithWidths | layers/InputLayer.h:14 | Gives a root layer with the stated widths. A negative input width raises invalid_argument; otherwise a negative output width raises bad_array_new_length. |
| InputLayers.InputForward | layers/InputLayer.h:16-20 | Writes `output[i] = input[i]` for `i < InputWidth` and leaves the rest of the buffer as it was. (The caches are not touched: see `Propagation.Forward`.) |
| InputLayers.NewMappingLayer | layers/MappingInputLayer.h:16-18 | Output width = input width + number of mappings. A negative input width is rejected. |
| InputLayers.MappingForward | layers/MappingInputLayer.h:20-30 | The first `InputWidth` outputs equal the input. Output `InputWidth+k` is mapping `k` applied to the raw input, in registration order. Every slot is written, and the caches then hold the input and the output. |
| FullyConnected.InitialParams | layers/FullyConnectedLayer.h:16-27 | `OutputWidth` rows of `InputWidth` weights plus `OutputWidth` biases. Each value is the draw numbered by its row-major position, with the bias after its row. |
| FullyConnected.DrawsAreDistinct | layers/FullyConnectedLayer.h:20-26 | Distinct parameters take distinct draws, and all of them fall in the block of `OutputWidth*(InputWidth+1)` draws consumed by construction. |
| FullyConnected.NewTrainable | layers/FullyConnectedLayer.h:16-27 | Fails with invalid_argument without a predecessor, and with bad_array_new_length for a negative width. Otherwise the new layer inherits its input width, links in, gets initial parameters from the draw source, and keeps the chain invariant. |
| FullyConnected.NewFullyConnected | layers/FullyConnectedLayer.h:16 | Succeeds exactly when there is a predecessor and the width is non-negative. Without a predecessor it fails with invalid_argument, and with a negative width with bad_array_new_length. The new layer is fully-connected, inherits its input width, is linked after its predecessor with a null successor, gets its initial parameters from the draw source, and keeps the chain invariant. |
| FullyConnected.PreActivation | layers/FullyConnectedLayer.h:38-41 | The forward sum of one output row: term `j` adds `input[j]*w[i][j] + bias[i]`. Its closed form is given by `PreActivationIsDotPlusBias`. |
| FullyConnected.PreActivationIsDotPlusBias | layers/FullyConnectedLayer.h:38-41 | The forward sum, which adds the bias once per input term, equals `dot(w[i], input) + InputWidth*bias[i]`. |
| FullyConnected.PreActivationsAreDotsPlusBias | layers/FullyConnectedLayer.h:37-43 | The same identity for every output row. |
| FullyConnected.PreActivations | layers/FullyConnectedLayer.h:37-41 | One sum per output row, each the dot product plus `InputWidth` copies of the bias. |
| FullyConnected.FullyConnectedForward | layers/FullyConnectedLayer.h:36-45 | `output[i] = tanh(dot(w[i], input) + InputWidth*bias[i])`. The caches hold the input and output; weights and biases are unchanged. |
| FullyConnected.GetWeight | layers/FullyConnectedLayer.h:64-68 | Returns `weights[o][i]` exactly when `0<=i<InputWidth` and `0<=o<OutputWidth`; otherwise out_of_range. |
| FullyConnected.BackSum | layers/FullyConnectedLayer.h:48-52 | The inner backward loop never hits the `getWeight` error when the successor was built on this layer. Its sum is column `j` of the successor's weights dotted with the successor's delta. |
| FullyConnected.HiddenDelta | layers/FullyConnectedLayer.h:48-54 | `delta[j] = (Σ_i next.w[i][j]*deltaNext[i]) * (1 - lastOutput[j]^2)` for `j < next.InputWidth`; other slots of the buffer are not written. |
| FullyConnected.Update | layers/FullyConnectedLayer.h:56-61 | `w[i][j] - lr*delta[i]*lastInput[j]` and `bias[i] - lr*delta[i]`, with the dimensions kept. |
| FullyConnected.UpdateIsUndone | layers/FullyConnectedLayer.h:56-61 | An update with learning rate `-lr` undoes one with `lr`. |
| FullyConnected.UpdateKeepsRowOfZeroDelta | layers/FullyConnectedLayer.h:56-61 | A row whose delta is 0 keeps its weights and bias. |
| FullyConnected.FullyConnectedBackward | layers/FullyConnectedLayer.h:47-62 | The hidden delta followed by the update. Widths, class and caches are unchanged. |
| OutputLayers.NewOutputLayer | layers/OutputLayer.h:13 | Fails and succeeds exactly as a fully-connected layer does: invalid_argument without a predecessor, bad_array_new_length for a negative width. The new layer is tagged as an output layer, inherits its input width, is linked after its predecessor with a null successor, gets its initial parameters from the draw source, and keeps the chain invariant. |
| OutputLayers.OutputDelta | layers/OutputLayer.h:16-18 | `delta[i] = error[i] * (1 - lastOutput[i]^2)` for every output unit. |
| OutputLayers.OutputBackward | layers/OutputLayer.h:15-25 | Seeds the delta from the error, then applies the fully-connected update. It reads no other layer, so a null successor is fine. |
| OutputLayers.ZeroErrorKeepsRow | layers/OutputLayer.h:16-24 | `error[i] == 0` leaves weight row `i` and `bias[i]` unchanged. |
| OutputLayers.SaturatedUnitKeepsRow | layers/OutputLayer.h:16-24 | A cached output of exactly ±1 gives `delta[i] == 0` and leaves row `i` unchanged. |
| Propagation.Forward | train/SimpleTrainer.h:41-42 | The virtual forward call: it keeps kind and widths and fills a buffer of `OutputWidth`. The plain input layer leaves its caches alone; every other class caches its input and output. |
| Propagation.ForwardIgnoresCaches | layers/FullyConnectedLayer.h:36-45 | A forward step's output does not depend on the caches' previous contents. |
| Propagation.Backward | train/SimpleTrainer.h:53-54 | The virtual backward call: the input layers do nothing and return the fresh buffer. Shapes and caches are kept; what a trainable layer's step does is stated by `BackwardUpdates`. |
| Propagation.BackwardUpdates | layers/FullyConnectedLayer.h:56-61 | For either trainable class, the new parameters are the gradient-descent update of the old ones by the delta the step returns and the layer's cached input. |
| Propagation.BackwardAt | train/SimpleTrainer.h:51-55 | Layer `k-1` steps backward against the signal of layer `k` (or the error, for the last layer). The delta it returns is as wide as the layer's output. |
| Propagation.ForwardPass | train/SimpleTrainer.h:40-46 | Buffers are threaded forward in vector order and indexing stays in bounds, given only the forward conditions. The result is as wide as the last layer's output, and only the caches change, so a vector ready for training stays ready. |
| Propagation.BackwardPass | train/SimpleTrainer.h:51-58 | Buffers are threaded backward in reverse order with indexing in bounds. Shapes are kept, and the final signal is as wide as layer 0's output. |
| Propagation.ForwardPassVisitsInOrder | train/SimpleTrainer.h:40-42 | Forward calls the layers `k, k+1, …, n-1`, each once. |
| Propagation.ForwardPassKeepsPrefix | train/SimpleTrainer.h:40-46 | A pass from `k` leaves the layers before `k` alone. |
| Propagation.ForwardPassCachesInput | train/SimpleTrainer.h:41-42 | The pass's first layer, when it caches, caches the first `InputWidth` values of the pass's input. |
| Propagation.ForwardPassThreadsFirst | train/SimpleTrainer.h:41-45 | The first layer's filled buffer is exactly what its successor receives. |
| Propagation.ForwardPassThreadsBuffers | train/SimpleTrainer.h:40-46 | Every caching layer caches as input exactly what its caching predecessor cached as output. |
| Propagation.ForwardPassEndsWithLastCache | train/SimpleTrainer.h:40-46 | The buffer the pass ends with is the last layer's cached output. |
| Propagation.BackwardPassVisitsInReverse | train/SimpleTrainer.h:51-52 | Backward calls the layers `k-1, k-2, …, 0`, each once. |
| Propagation.BackwardPassChangesOnlyParams | train/SimpleTrainer.h:51-58 | Caches are kept, layers from `k` on are untouched, and the untrained input layers are untouched. |
| Propagation.ForwardPassAppliesEachLayer | train/SimpleTrainer.h:40-46 | The first layer receives the pass's input. Each layer ends the pass as its own forward step on the buffer it received and a fresh output buffer leaves it. That step's filled buffer is what the next layer receives, or what the pass ends with after the last layer. |
| Propagation.ForwardPassStepsFirst | train/SimpleTrainer.h:40-45 | Layer `k` receives the pass's input, ends the pass as its forward step on that input leaves it, and hands its filled buffer to layer `k+1`. |
| Propagation.BackwardPassStepsFirst | train/SimpleTrainer.h:51-57 | Layer `k-1` receives the pass's signal and ends the pass as its backward step against layer `k` leaves it; layer `k` is not changed by the pass. Its filled delta goes to layer `k-2`. |
| Propagation.BackwardPassStepsEachLayer | train/SimpleTrainer.h:51-58 | Layer `k-1` receives the pass's signal: the error, when the pass starts at the end. Each layer ends the pass as its own backward step leaves it, taken against its successor as that successor ends the pass, so after the successor's update. The last layer has no successor. The filled delta buffer is what the preceding layer receives. |
| Propagation.ForwardPassIgnoresCaches | main.cpp:81-87 | Two layer vectors that differ only in their caches produce the same forward output. |
| SimpleTrainer.ApplyError | train/SimpleTrainer.h:48 | The first `OutputWidth` slots of the output buffer are overwritten with the error, and the other slots keep the network output. |
| SimpleTrainer.TrainStep | train/SimpleTrainer.h:34-58 | One iteration: forward, in-place error, reverse backward. The layers stay runnable and keep their shapes. |
| SimpleTrainer.TrainStepPropagates | train/SimpleTrainer.h:34-58 | An iteration is the forward pass from the sample, with every layer stepped in vector order. It is followed by the backward pass whose first signal is the output buffer after the in-place error. Every layer is then stepped in reverse order, and the iteration's layers are exactly what that backward pass leaves. |
| SimpleTrainer.Iterations | train/SimpleTrainer.h:33 | Exactly `TrainingTimes` iterations, or none when that is ≤ 0. |
| SimpleTrainer.Iterate | train/SimpleTrainer.h:33-59 | After `n` iterations the layers are runnable and have their original shapes; only layer state carries over. |
| SimpleTrainer.Iteration | train/SimpleTrainer.h:34-58 | Iteration `j` trains the layers left by the first `j` iterations on sample `j`; they stay runnable with their original shapes. |
| SimpleTrainer.IterateStep | train/SimpleTrainer.h:33-59 | Iteration `n` uses sample `n`, and its preconditions hold after `n` iterations. |
| SimpleTrainer.TrainOnce | train/SimpleTrainer.h:34-58 | The loop body turns the layers after `j` iterations into the layers after `j+1`. |
| SimpleTrainer.StartTraining | train/SimpleTrainer.h:31-60 | The loop runs `Iterations(cfg)` iterations on samples in order, with an unchanged configuration. The layers are unchanged when `TrainingTimes ≤ 0`. |
| Program.SetIndex | main.cpp:26-35 | invalid_argument exactly when `index ∉ [0, outputCount)`. Otherwise the slots hold `-1` except `1` at `index`, later slots are untouched, and it returns `index`. |
| Program.RegionClass | main.cpp:37-43 | The class is 0 exactly when `(x+2)^2 + y^2 < 1`, and 1 otherwise. |
| Program.RealFunction | main.cpp:36-44 | Returns that class and writes its ±1 one-hot vector. It fails only when `ow` has no slot for the class. |
| Program.ArgMaxScan | main.cpp:89-95 | The running maximum starts at -1 at index 0. The index moves only on a strictly larger value, so ties keep the earliest index. |
| Program.ArgMax | main.cpp:89-95 | Slot 0 when no value exceeds -1. Otherwise the first slot holding the maximum, which exceeds -1. |
| Program.ArgMaxOfOneHot | main.cpp:89-95 | Argmax decodes a one-hot vector to its index. |
| Program.SetIndexThenArgMax | main.cpp:26-35 | `setIndex` followed by argmax is the identity on valid indices. |
| Program.ErrorVector | main.cpp:159-163 | `error[i] = output[i] - expected[i]` for `i < width`. |
| Program.ScalarError | main.cpp:164-169 | The sum of squares is always ≥ 0. |
| Program.ZeroErrorHasZeroLoss | main.cpp:164-169 | An all-zero error has zero loss. |
| Program.OnTargetHasZeroLoss | main.cpp:159-169 | An output equal to the target has zero loss. |
| Program.Walk | main.cpp:59-68 | The nodes visited by following `nextLayer` from a node until null. The walk starts at the given node and strictly increases, staying inside the store. |
| Program.WalkIsChain | main.cpp:62-68 | The walk follows the links and stops at the first null link. |
| Program.ChainStops | main.cpp:63-65 | The walk ends exactly at the node whose link is null. |
| Program.ChainContinues | main.cpp:63-67 | A non-null link is the next node of the walk. |
| Program.WalkWidths | main.cpp:59-68 | Consecutive collected layers satisfy the chain-width invariant. |
| Program.CollectChain | main.cpp:59-68 | The loop collects exactly the walk from the root, in linked order, with adjacent widths matching. |
| Program.BuildFront | main.cpp:48-55 | The mapping layer is 2→6 with four features, and the first hidden layer is linked after it, 6→6. |
| Program.BuildNetwork | main.cpp:48-57 | Four layers linked 0→1→2→3→null: Mapping 2→6, FC 6→6, FC 6→6, Output 6→2, with consecutive blocks of draws. |
| Program.CollectFour | main.cpp:59-70 | Walking that store yields the four layers in linked order, ready to run. |
| Program.InitializeNetwork | main.cpp:46-71 | The collected vector has vector order = linked order, widths 2→6, 6→6, 6→6, 6→2, and is runnable. |
| Program.GenerateCase | main.cpp:76-79 | A test point has `InputWidth` coordinates, and its oracle index always has a slot among the `OutputWidth` outputs. |
| Program.GenerateCaseFollowsOracle | main.cpp:77-79 | The point is `(a * InputXWidth, b * InputYWidth)` for the round's two draws `(a, b)`. Its index is the class `realFunction` gives that point: 0 exactly inside the disc. |
| Program.Classify | main.cpp:81-95 | The network's class for a point is below `OutputWidth`. |
| Program.CountTrue | main.cpp:96-97 | Counts the hits: all of them exactly when every verdict holds, none exactly when none does. |
| Program.CountTruePrefix | main.cpp:96-97 | The count rises by exactly one on a hit and not at all otherwise. |
| Program.AgreementCount | main.cpp:75-99 | Among the first `n` cases, the count of hits is at most `n`. It is `n` exactly when the network's argmax matches the oracle's index on every case, and 0 exactly when it matches on none. |
| Program.Agrees | main.cpp:96 | A round is a hit when the network's argmax equals the oracle's index. |
| Program.TestOne | main.cpp:76-98 | One test round gives the verdict of the original layers, because the refreshed caches do not matter. |
| Program.TestRound | main.cpp:75-98 | One round over case `i`: given the number of hits over the first `i` cases, it returns the number over the first `i+1`, so the count rises by one exactly when the argmax for case `i` matches the oracle's index. The layers keep their parameters. |
| Program.TestLayers | main.cpp:73-100 | The final success count is the number of rounds, among the first `testTimes`, whose argmax matches the oracle's index. |

## Left out

- Console output is not modelled: `printWeights`, the per-iteration loss line of the trainer, the printed weights and the success-rate line of `testLayers`.
- The option parsing of `main` and its mapping of exceptions to an exit code (main.cpp:111-179) are not modelled; they are command-line plumbing.
- `MathUtils::rand1` and `srand` are treated as an arbitrary value source. Their values come from the `rand` draw source and, in the trainer and test loop, from the given sample sequences. No bounds on them are assumed.
- `std::tanh` and `std::sin` are uninterpreted. No bound on tanh is assumed, so nothing depends on outputs lying in (-1, 1). The four feature lambdas of `initializeNetwork` are named by position only, and their evaluation is a parameter.
- Floating-point rounding is not modelled; all arithmetic is exact over the reals.
- `new`/`delete` memory management and the leaked final buffer are not modelled: buffers are fresh sequences.
- The `static_cast` downcasts are modelled by the layer kind tag. `CanBackward` requires a hidden layer's successor to be trainable, which is what the cast silently assumes.
- `Propagation.Forward`: requires a plain `InputLayer` to have `InputWidth <= OutputWidth`. The code writes `InputWidth` slots into a buffer of `OutputWidth` and would overrun it otherwise.
- A constructor that throws after linking itself leaves the predecessor's `nextLayer` pointing at a destroyed object. The model returns an error and no new store, so that dangling link is not represented.
- `setIndex` throws a heap-allocated exception object (`throw new std::invalid_argument`), which `main`'s `catch (std::exception&)` would not catch. The model only reports the error kind.
- The trainer's input generator is modelled as the sequence of samples it produces. The oracle's one-hot target is a function `Oracle`, and the error lambda is a function `ErrorFunction` that is assumed to write at least `OutputWidth` values.
- Each round of `testLayers` is split in two. `GenerateCase` builds the point and its oracle index from the round's two `rand1` draws. `TestLayers` then runs the rounds over a given sequence of such cases. This is the same computation, because the point and the oracle index depend only on the draws.
- `TestLayers` does not return the layers whose caches its forward passes refresh, because nothing reads those caches afterwards. `TestOne` states, round by round, that only the caches change.
- Propagation.BackwardAt: takes a layer's successor as the next element of the layer vector. The code follows the layer's own `nextLayer` link instead (layers/FullyConnectedLayer.h:48-52). The two agree when the vector was collected by the chain walk, which `Program.InitializeNetwork` shows for the network `main` builds. A vector assembled in another order is not modelled.
- SimpleTrainer.TrainStep: the trainer passes the output buffer as both the output and the error buffer of `errorFunction` (train/SimpleTrainer.h:48). The model computes the error from the untouched output and then writes it over the buffer. The two agree only for error functions whose slot `i` reads the output at slot `i` alone, as the lambda in `main` does. Other error functions would see partly overwritten outputs, and that aliasing is not modelled.
- A single `Uninit` parameter gives the contents of every fresh buffer, so two fresh buffers of the same width start out equal. This matters only for a plain `InputLayer` whose output is wider than its input, because the unwritten slots then carry those contents. For such a layer the model makes the forward output a function of the input (`ForwardPassIgnoresCaches`, `TestOne`), whereas the code's uninitialised memory may differ from call to call.
- SimpleTrainer.StartTraining: the trainer's failure paths are not modelled. With a negative `InputWidth` and `TrainingTimes > 0`, the first `new double[InputWidth]` (train/SimpleTrainer.h:35) throws bad_array_new_length; `TrainReady` leaves that case out, since it asks every sample to hold `InputWidth` values. The injected `realFunction` and `errorFunction` are total functions here (`Oracle`, `ErrorFunction`), so an exception they throw, such as the invalid_argument of `setIndex` for an index outside `[0, OutputWidth)` (main.cpp:27-28), cannot occur in the model. For `main`'s oracle, `Program.RealFunction` shows that it never fails when `OutputWidth` is 2.
- SimpleTrainer.StartTraining: `TrainingTimes` is an unbounded integer. `main` passes its `unsigned trainTimes` (main.cpp:115-116, 153) to the `int trainingTimes` parameter (train/SimpleTrainer.h:17), so a count above INT_MAX arrives negative and no iteration runs. That conversion is not modelled.
- Program.TestLayers: `testTimes` and the counters are unbounded. The code counts with `int i` and `int successCount` against an `unsigned testTimes` (main.cpp:73-75); for `testTimes` above INT_MAX the increments overflow, which is undefined behaviour. That overflow is not modelled.
- InputLayers.NewMappingLayer: the output width `InputWidth + (int)mappings.size()` (layers/MappingInputLayer.h:17) is an unbounded sum. In the code the `int` addition overflows when the sum exceeds INT_MAX. That overflow is not modelled.
- `main` hands `initializeNetwork`'s layers, `realFunction` and the two lambdas to the trainer and then to `testLayers`. Each piece is modelled, but the composition is not stated as one member.
- Program.ScalarError: only "zero error ⇒ zero loss" is proved (`Program.ZeroErrorHasZeroLoss`). The converse, "zero loss ⇒ every error is zero", holds for reals, but the solver's nonlinear real arithmetic does not prove it reliably, so it is not stated.
- The model follows the code in three places a reader might not expect:
  - widths of 0 are accepted, because the checks are `< 0`;
  - a hidden layer's delta buffer is as wide as its own output, not its input;
  - the bias is added once per input term.

=== FILE: errors.dfy ===
/** Failure values of the network code: the C++ exceptions it throws, and the
    nullable links between layers. */
module Errors {

  /** The exceptions the modelled code can raise. */
  datatype Error =
    | InvalidArgument    // std::invalid_argument
    | OutOfRange         // std::out_of_range
    | BadArrayNewLength  // std::bad_array_new_length, raised by `new double[n]` with n < 0

  /** A link or handle that may be null. */
  datatype Option<+T> = None | Some(value: T)

  /** A value, or the exception that replaced it. Failure-compatible, so `:-` propagates errors. */
  datatype Result<+T> = Ok(value: T) | Err(error: Error) {

    predicate IsFailure() {
      Err?
    }

    function PropagateFailure<U>(): Result<U>
      requires Err?
    {
      Err(error)
    }

    function Extract(): T
      requires Ok?
    {
      value
    }
  }
}

=== FILE: fully_connected.dfy ===
/** FullyConnectedLayer (layers/FullyConnectedLayer.h): a dense layer with a tanh
    activation, trained by gradient descent. */
module FullyConnected {
  import opened Errors
  import opened Vectors
  import opened Layers

  /** Draw number of the `j`-th value of row `i` during initialisation (`j == inW` is the bias). */
  function DrawIndex(inW: nat, draws: nat, i: nat, j: nat): nat {
    draws + i * (inW + 1) + j
  }

  /** Initial parameters drawn from the value source `rand` (MathUtils::rand1), starting at draw
      number `draws`: for each output row, its `inW` weights in order, then its bias. */
  function InitialParams(inW: nat, outW: nat, rand: nat -> real, draws: nat): (p: Params)
    ensures ParamsShape(p, inW, outW)
    ensures forall i, j :: 0 <= i < outW && 0 <= j < inW ==> p.weights[i][j] == rand(DrawIndex(inW, draws, i, j))
    ensures forall i :: 0 <= i < outW ==> p.bias[i] == rand(DrawIndex(inW, draws, i, inW))
  {
    Params(seq(outW, (i: int) requires 0 <= i < outW =>
                 seq(inW, (j: int) requires 0 <= j < inW => rand(DrawIndex(inW, draws, i, j)))),
           seq(outW, (i: int) requires 0 <= i < outW => rand(DrawIndex(inW, draws, i, inW))))
  }

  /** Multiplying by the same natural number keeps the order. */
  lemma {:induction false} MulMonotone(a: nat, b: nat, w: nat)
    requires a <= b
    ensures a * w <= b * w
    decreases b - a
  {
    if a < b {
      MulMonotone(a, b - 1, w);
      assert b * w == (b - 1) * w + w;
    }
  }

  /** Each initial parameter consumes its own draw, and all draws lie in the block of
      `outW * (inW + 1)` draws that construction consumes. */
  lemma DrawsAreDistinct(inW: nat, outW: nat, draws: nat, i: nat, j: nat, i': nat, j': nat)
    requires i < outW && i' < outW && j <= inW && j' <= inW
    ensures draws <= DrawIndex(inW, draws, i, j) < draws + outW * (inW + 1)
    ensures DrawIndex(inW, draws, i, j) == DrawIndex(inW, draws, i', j') ==> i == i' && j == j'
  {
    var w := inW + 1;
    assert (i + 1) * w == i * w + w;
    assert (i' + 1) * w == i' * w + w;
    MulMonotone(i + 1, outW, w);
    if i < i' {
      MulMonotone(i + 1, i', w);
    } else if i' < i {
      MulMonotone(i' + 1, i, w);
    }
  }

  /** `FullyConnectedLayer(out, last)` and, with `output` set, `OutputLayer(out, last)`: the input
      width comes from the predecessor, so a layer without one is always rejected. Returns the
      new store and the number of draws consumed so far. */
  function NewTrainable(s: seq<Node>, outputWidth: int, last: Option<nat>, rand: nat -> real,
                        draws: nat, u: Uninit, output: bool): (r: Result<(seq<Node>, nat)>)
    requires last.Some? ==> last.value < |s|
    ensures r.Ok? <==> last.Some? && outputWidth >= 0
    ensures last.None? ==> r == Err(InvalidArgument)
    ensures last.Some? && outputWidth < 0 ==> r == Err(BadArrayNewLength)
    ensures r.Ok? ==> |r.value.0| == |s| + 1
    ensures r.Ok? ==>
      var s' := r.value.0;
      var l := s'[|s|].layer;
      && s'[|s|].next.None?
      && s'[last.value].next == Some(|s|) && s'[last.value].layer == s[last.value].layer
      && (forall k :: 0 <= k < |s| && k != last.value ==> s'[k] == s[k])
      && Valid(l) && l.Trainable() && (l.kind.OutputKind? <==> output)
      && l.inputWidth == s[last.value].layer.outputWidth && l.outputWidth == outputWidth
      && l.kind.params == InitialParams(l.inputWidth, l.outputWidth, rand, draws)
      && r.value.1 == draws + l.outputWidth * (l.inputWidth + 1)
    ensures r.Ok? && StoreOk(s) ==> StoreOk(r.value.0)
  {
    var widths :- LayerWidths(s, outputWidth, last, -1);
    var p := InitialParams(widths.0, widths.1, rand, draws);
    var kind := if output then OutputKind(p) else FullyConnectedKind(p);
    AttachKeepsStoreOk(s, Layer(kind, widths.0, widths.1, Alloc(widths.0, u), Alloc(widths.1, u)), last);
    Ok((NewLayer(s, kind, widths, last, u), draws + widths.1 * (widths.0 + 1)))
  }

  /** `FullyConnectedLayer(out, last)`. */
  function NewFullyConnected(s: seq<Node>, outputWidth: int, last: Option<nat>, rand: nat -> real,
                             draws: nat, u: Uninit): (r: Result<(seq<Node>, nat)>)
    requires last.Some? ==> last.value < |s|
    ensures r.Ok? <==> last.Some? && outputWidth >= 0
    ensures last.None? ==> r == Err(InvalidArgument)
    ensures r.Ok? ==> |r.value.0| == |s| + 1 && r.value.0[|s|].layer.kind.FullyConnectedKind?
    ensures last.Some? && outputWidth < 0 ==> r == Err(BadArrayNewLength)
    ensures r.Ok? ==>
      var s' := r.value.0;
      var l := s'[|s|].layer;
      && s'[|s|].next.None?
      && s'[last.value].next == Some(|s|) && s'[last.value].layer == s[last.value].layer
      && (forall k :: 0 <= k < |s| && k != last.value ==> s'[k] == s[k])
      && l.inputWidth == s[last.value].layer.outputWidth && l.outputWidth == outputWidth
      && l.kind.params == InitialParams(l.inputWidth, l.outputWidth, rand, draws)
      && r.value.1 == draws + l.outputWidth * (l.inputWidth + 1)
    ensures r.Ok? && StoreOk(s) ==> StoreOk(r.value.0)
  {
    NewTrainable(s, outputWidth, last, rand, draws, u, false)
  }

  /** The sum the forward loop accumulates for one output unit: `input[j] * row[j] + b`
      for each `j < n`, so the bias enters once per input term. */
  function PreActivation(row: seq<real>, input: seq<real>, b: real, n: nat): real
    requires n <= |row| && n <= |input|
  {
    if n == 0 then 0.0 else PreActivation(row, input, b, n - 1) + (input[n - 1] * row[n - 1] + b)
  }

  /** The dot product of a weight row with the input plus `n` copies of the bias. */
  function DotPlusBiases(row: seq<real>, input: seq<real>, b: real, n: nat): real
    requires n <= |row| && n <= |input|
  {
    Dot(row, input, n) + (n as real) * b
  }

  /** The forward sum is the dot product plus `n` copies of the bias. */
  lemma {:induction false} PreActivationIsDotPlusBias(row: seq<real>, input: seq<real>, b: real, n: nat)
    requires n <= |row| && n <= |input|
    ensures PreActivation(row, input, b, n) == DotPlusBiases(row, input, b, n)
  {
    if n > 0 {
      PreActivationIsDotPlusBias(row, input, b, n - 1);
      assert Dot(row, input, n) == Dot(row, input, n - 1) + row[n - 1] * input[n - 1];
      assert (n as real) * b == ((n - 1) as real) * b + b;
      assert input[n - 1] * row[n - 1] == row[n - 1] * input[n - 1];
    }
  }

  lemma PreActivationsAreDotsPlusBias(p: Params, input: seq<real>, inW: nat, outW: nat)
    requires ParamsShape(p, inW, outW) && inW <= |input|
    ensures forall i :: 0 <= i < outW ==>
              PreActivation(p.weights[i], input, p.bias[i], inW) == DotPlusBiases(p.weights[i], input, p.bias[i], inW)
  {
    forall i | 0 <= i < outW
      ensures PreActivation(p.weights[i], input, p.bias[i], inW) == DotPlusBiases(p.weights[i], input, p.bias[i], inW)
    {
      PreActivationIsDotPlusBias(p.weights[i], input, p.bias[i], inW);
    }
  }

  /** The sums of one forward step, one per output row. */
  function PreActivations(p: Params, input: seq<real>, inW: nat, outW: nat): (r: seq<real>)
    requires ParamsShape(p, inW, outW) && inW <= |input|
    ensures |r| == outW
    ensures forall i :: 0 <= i < outW ==> r[i] == DotPlusBiases(p.weights[i], input, p.bias[i], inW)
  {
    PreActivationsAreDotsPlusBias(p, input, inW, outW);
    seq(outW, (i: int) requires 0 <= i < outW => PreActivation(p.weights[i], input, p.bias[i], inW))
  }

  /** `forwardPropagation` of FullyConnectedLayer (and of OutputLayer, which inherits it):
      output `i` is the activation of row `i`'s dot product with the input plus `inputWidth`
      times bias `i`; the caches then hold the input and the output, and the parameters are
      unchanged. */
  function FullyConnectedForward(l: Layer, input: seq<real>, act: Activation): (r: Step)
    requires l.Trainable() && Valid(l) && l.inputWidth <= |input|
    ensures |r.signal| == l.outputWidth
    ensures forall i :: 0 <= i < l.outputWidth ==>
              r.signal[i] == act(DotPlusBiases(l.kind.params.weights[i], input, l.kind.params.bias[i], l.inputWidth))
    ensures r.layer == l.(lastInput := input[..l.inputWidth], lastOutput := r.signal)
  {
    var sums := PreActivations(l.kind.params, input, l.inputWidth, l.outputWidth);
    var output := seq(l.outputWidth, (i: int) requires 0 <= i < l.outputWidth => act(sums[i]));
    assert output[..l.outputWidth] == output;
    Step(CacheForward(l, input, output), output)
  }

  /** `getWeight(i, o)`: the weight from input `i` to output `o`, or out_of_range when either
      index lies outside the layer. */
  function GetWeight(l: Layer, i: int, o: int): (r: Result<real>)
    requires l.Trainable() && Valid(l)
    ensures r.Ok? <==> 0 <= i < l.inputWidth && 0 <= o < l.outputWidth
    ensures r.Ok? ==> r.value == l.kind.params.weights[o][i]
    ensures r.Err? ==> r.error == OutOfRange
  {
    if i < 0 || i >= l.inputWidth || o < 0 || o >= l.outputWidth then Err(OutOfRange)
    else Ok(l.kind.params.weights[o][i])
  }

  /** The inner loop of the backward step: `Σ_{i<n} next.getWeight(j, i) * deltaNext[i]`. Every
      `getWeight` call succeeds, and the sum is column `j` of the successor's weights dotted
      with the successor's delta. */
  function BackSum(next: Layer, j: nat, deltaNext: seq<real>, n: nat): (r: real)
    requires next.Trainable() && Valid(next)
    requires j < next.inputWidth && n <= next.outputWidth && n <= |deltaNext|
    ensures r == Dot(Column(next.kind.params.weights, j), deltaNext, n)
  {
    if n == 0 then 0.0
    else BackSum(next, j, deltaNext, n - 1) + GetWeight(next, j, n - 1).value * deltaNext[n - 1]
  }

  /** The delta a hidden layer computes into the fresh buffer `buf`: for each
      `j < next.inputWidth`, the back-propagated sum times the tanh derivative `1 - y_j^2` at
      the cached output; the remaining slots of the buffer are not written. */
  function HiddenDelta(l: Layer, next: Layer, deltaNext: seq<real>, buf: seq<real>): (r: seq<real>)
    requires Valid(l) && next.Trainable() && Valid(next)
    requires next.inputWidth <= |buf| && next.inputWidth <= l.outputWidth && next.outputWidth <= |deltaNext|
    ensures |r| == |buf|
    ensures forall j :: 0 <= j < next.inputWidth ==>
              r[j] == Dot(Column(next.kind.params.weights, j), deltaNext, next.outputWidth)
                      * (1.0 - l.lastOutput[j] * l.lastOutput[j])
    ensures forall j :: next.inputWidth <= j < |buf| ==> r[j] == buf[j]
  {
    seq(|buf|, (j: int) requires 0 <= j < |buf| =>
          if j < next.inputWidth then
            BackSum(next, j, deltaNext, next.outputWidth) * (1.0 - l.lastOutput[j] * l.lastOutput[j])
          else buf[j])
  }

  /** The gradient-descent update shared by FullyConnectedLayer and OutputLayer: weight
      `[i][j]` moves by `-lr * delta[i] * x[j]` and bias `i` by `-lr * delta[i]`. */
  function Update(p: Params, delta: seq<real>, x: seq<real>, lr: real, inW: nat, outW: nat): (r: Params)
    requires ParamsShape(p, inW, outW) && outW <= |delta| && inW <= |x|
    ensures ParamsShape(r, inW, outW)
    ensures forall i, j :: 0 <= i < outW && 0 <= j < inW ==>
              r.weights[i][j] == p.weights[i][j] - lr * delta[i] * x[j]
    ensures forall i :: 0 <= i < outW ==> r.bias[i] == p.bias[i] - lr * delta[i]
  {
    Params(seq(outW, (i: int) requires 0 <= i < outW =>
                 seq(inW, (j: int) requires 0 <= j < inW => p.weights[i][j] - lr * delta[i] * x[j])),
           seq(outW, (i: int) requires 0 <= i < outW => p.bias[i] - lr * delta[i]))
  }

  /** A step with the opposite learning rate undoes an update. */
  lemma UpdateIsUndone(p: Params, delta: seq<real>, x: seq<real>, lr: real, inW: nat, outW: nat)
    requires ParamsShape(p, inW, outW) && outW <= |delta| && inW <= |x|
    ensures Update(Update(p, delta, x, lr, inW, outW), delta, x, -lr, inW, outW) == p
  {
    var q := Update(Update(p, delta, x, lr, inW, outW), delta, x, -lr, inW, outW);
    forall i | 0 <= i < outW
      ensures q.weights[i] == p.weights[i]
    {
      assert |q.weights[i]| == |p.weights[i]|;
    }
    assert q.weights == p.weights;
    assert q.bias == p.bias;
  }

  /** A row whose delta is zero keeps its weights and its bias. */
  lemma UpdateKeepsRowOfZeroDelta(p: Params, delta: seq<real>, x: seq<real>, lr: real, inW: nat, outW: nat, i: nat)
    requires ParamsShape(p, inW, outW) && outW <= |delta| && inW <= |x|
    requires i < outW && delta[i] == 0.0
    ensures Update(p, delta, x, lr, inW, outW).weights[i] == p.weights[i]
    ensures Update(p, delta, x, lr, inW, outW).bias[i] == p.bias[i]
  {
    var r := Update(p, delta, x, lr, inW, outW);
    assert |r.weights[i]| == |p.weights[i]|;
  }

  /** `backwardPropagation` of FullyConnectedLayer: computes its delta from the successor `next`
      (the layer its `nextLayer` designates) and the successor's delta, then applies the
      gradient-descent update with that delta and the cached input. Widths and caches do not change. */
  function FullyConnectedBackward(l: Layer, next: Layer, deltaNext: seq<real>, buf: seq<real>, lr: real): (r: Step)
    requires l.kind.FullyConnectedKind? && Valid(l) && |buf| == l.outputWidth
    requires next.Trainable() && Valid(next)
    requires next.inputWidth <= l.outputWidth && next.outputWidth <= |deltaNext|
    ensures Valid(r.layer) && SameShape(l, r.layer) && r.layer.kind.FullyConnectedKind?
    ensures r.layer.lastInput == l.lastInput && r.layer.lastOutput == l.lastOutput
    ensures |r.signal| == l.outputWidth
    ensures forall j :: 0 <= j < next.inputWidth ==>
              r.signal[j] == Dot(Column(next.kind.params.weights, j), deltaNext, next.outputWidth)
                             * (1.0 - l.lastOutput[j] * l.lastOutput[j])
    ensures forall i, j :: 0 <= i < l.outputWidth && 0 <= j < l.inputWidth ==>
              r.layer.kind.params.weights[i][j] == l.kind.params.weights[i][j] - lr * r.signal[i] * l.lastInput[j]
    ensures forall i :: 0 <= i < l.outputWidth ==>
              r.layer.kind.params.bias[i] == l.kind.params.bias[i] - lr * r.signal[i]
  {
    var delta := HiddenDelta(l, next, deltaNext, buf);
    var p := Update(l.kind.params, delta, l.lastInput, lr, l.inputWidth, l.outputWidth);
    Step(l.(kind := FullyConnectedKind(p)), delta)
  }
}

=== FILE: input_layer.dfy ===
/** InputLayer (layers/InputLayer.h) and MappingInputLayer (layers/MappingInputLayer.h):
    the untrained entry layers of the chain. */
module InputLayers {
  import opened Errors
  import opened Vectors
  import opened Layers

  /** `InputLayer(w)`: a root layer whose input and output widths are both `w`. */
  function NewInputLayer(s: seq<Node>, width: int, u: Uninit): (r: Result<seq<Node>>)
    ensures r.Ok? <==> width >= 0
    ensures width < 0 ==> r == Err(InvalidArgument)
    ensures r.Ok? ==> |r.value| == |s| + 1 && r.value[..|s|] == s && r.value[|s|].next.None?
    ensures r.Ok? ==> var l := r.value[|s|].layer;
                      Valid(l) && l.kind == InputKind && l.inputWidth == width && l.outputWidth == width
    ensures r.Ok? && StoreOk(s) ==> StoreOk(r.value)
  {
    var widths :- LayerWidths(s, width, None, width);
    AttachKeepsStoreOk(s, Layer(InputKind, widths.0, widths.1, Alloc(widths.0, u), Alloc(widths.1, u)), None);
    Ok(NewLayer(s, InputKind, widths, None, u))
  }

  /** `InputLayer(in, out)`: a root layer with the stated widths. A negative input width is
      rejected first; a negative output width then fails the cache allocation. */
  function NewInputLayerWithWidths(s: seq<Node>, inputWidth: int, outputWidth: int, u: Uninit): (r: Result<seq<Node>>)
    ensures r.Ok? <==> inputWidth >= 0 && outputWidth >= 0
    ensures inputWidth < 0 ==> r == Err(InvalidArgument)
    ensures inputWidth >= 0 && outputWidth < 0 ==> r == Err(BadArrayNewLength)
    ensures r.Ok? ==> |r.value| == |s| + 1 && r.value[..|s|] == s && r.value[|s|].next.None?
    ensures r.Ok? ==> var l := r.value[|s|].layer;
                      Valid(l) && l.kind == InputKind && l.inputWidth == inputWidth && l.outputWidth == outputWidth
    ensures r.Ok? && StoreOk(s) ==> StoreOk(r.value)
  {
    var widths :- LayerWidths(s, outputWidth, None, inputWidth);
    AttachKeepsStoreOk(s, Layer(InputKind, widths.0, widths.1, Alloc(widths.0, u), Alloc(widths.1, u)), None);
    Ok(NewLayer(s, InputKind, widths, None, u))
  }

  /** `InputLayer::forwardPropagation`: copies the first `inputWidth` inputs into the output
      buffer, leaves the rest of the buffer as it was, and does not touch the caches. */
  function InputForward(l: Layer, input: seq<real>, output: seq<real>): (r: seq<real>)
    requires l.inputWidth <= |input| && l.inputWidth <= |output|
    ensures |r| == |output|
    ensures forall i :: 0 <= i < l.inputWidth ==> r[i] == input[i]
    ensures forall i :: l.inputWidth <= i < |output| ==> r[i] == output[i]
  {
    input[..l.inputWidth] + output[l.inputWidth..]
  }

  /** `MappingInputLayer(in, mappings)`: a root layer whose output width is the input width
      plus one slot per mapping. */
  function NewMappingLayer(s: seq<Node>, inputWidth: int, mappings: seq<FeatureId>, u: Uninit): (r: Result<seq<Node>>)
    ensures r.Ok? <==> inputWidth >= 0
    ensures inputWidth < 0 ==> r == Err(InvalidArgument)
    ensures r.Ok? ==> |r.value| == |s| + 1 && r.value[..|s|] == s && r.value[|s|].next.None?
    ensures r.Ok? ==> var l := r.value[|s|].layer;
                      && Valid(l) && l.kind == MappingKind(mappings)
                      && l.inputWidth == inputWidth && l.outputWidth == inputWidth + |mappings|
    ensures r.Ok? && StoreOk(s) ==> StoreOk(r.value)
  {
    var widths :- LayerWidths(s, inputWidth + |mappings|, None, inputWidth);
    AttachKeepsStoreOk(s, Layer(MappingKind(mappings), widths.0, widths.1, Alloc(widths.0, u), Alloc(widths.1, u)), None);
    Ok(NewLayer(s, MappingKind(mappings), widths, None, u))
  }

  /** `MappingInputLayer::forwardPropagation`: the raw input, then one feature value per
      mapping in registration order; every output slot is written, and the caches then hold
      the input and the output. */
  function MappingForward(l: Layer, input: seq<real>, eval: FeatureEval): (r: Step)
    requires l.kind.MappingKind? && Valid(l) && l.inputWidth <= |input|
    ensures |r.signal| == l.outputWidth
    ensures forall i :: 0 <= i < l.inputWidth ==> r.signal[i] == input[i]
    ensures forall k :: 0 <= k < |l.kind.mappings| ==>
              r.signal[l.inputWidth + k] == eval(l.kind.mappings[k], input, l.inputWidth)
    ensures r.layer == l.(lastInput := input[..l.inputWidth], lastOutput := r.signal)
  {
    var m := l.kind.mappings;
    var features := seq(|m|, (k: int) requires 0 <= k < |m| => eval(m[k], input, l.inputWidth));
    var output := input[..l.inputWidth] + features;
    assert output[..l.outputWidth] == output;
    Step(CacheForward(l, input, output), output)
  }
}

=== FILE: layer.dfy ===
/** The layer abstraction of layers/Layer.h: shapes, the forward caches, and the
    singly linked chain that construction builds. */
module Layers {
  import opened Errors
  import opened Vectors

  /** Registration position of a feature function of a mapping input layer. */
  type FeatureId = nat

  /** Evaluates a registered feature function on the raw input buffer and its width. */
  type FeatureEval = (FeatureId, seq<real>, int) -> real

  /** The activation `std::tanh`, left uninterpreted. */
  type Activation = real -> real

  /** Trainable parameters: `weights[o][i]` connects input `i` to output `o`. */
  datatype Params = Params(weights: seq<seq<real>>, bias: seq<real>)

  /** The four concrete layer classes. */
  datatype Kind =
    | InputKind                            // InputLayer
    | MappingKind(mappings: seq<FeatureId>) // MappingInputLayer
    | FullyConnectedKind(params: Params)   // FullyConnectedLayer
    | OutputKind(params: Params)           // OutputLayer

  /** A layer with its widths and the buffers cached by its last forward step. */
  datatype Layer = Layer(kind: Kind, inputWidth: nat, outputWidth: nat,
                         lastInput: seq<real>, lastOutput: seq<real>)
  {
    /** Holds weights and biases (FullyConnectedLayer and its subclass OutputLayer). */
    predicate Trainable() {
      kind.FullyConnectedKind? || kind.OutputKind?
    }

    /** Calls the base forward step, so its caches follow each forward call. */
    predicate Caches() {
      !kind.InputKind?
    }
  }

  /** The result of one layer step: the layer's new state and the buffer it filled. */
  datatype Step = Step(layer: Layer, signal: seq<real>)

  /** `outW` rows of `inW` weights and `outW` biases. */
  predicate ParamsShape(p: Params, inW: nat, outW: nat) {
    && |p.weights| == outW
    && |p.bias| == outW
    && forall i :: 0 <= i < outW ==> |p.weights[i]| == inW
  }

  /** The shape every constructed layer keeps for its lifetime. */
  predicate Valid(l: Layer) {
    && |l.lastInput| == l.inputWidth
    && |l.lastOutput| == l.outputWidth
    && match l.kind
       case InputKind => true
       case MappingKind(m) => l.outputWidth == l.inputWidth + |m|
       case FullyConnectedKind(p) => ParamsShape(p, l.inputWidth, l.outputWidth)
       case OutputKind(p) => ParamsShape(p, l.inputWidth, l.outputWidth)
  }

  /** Same class, same widths, same mappings; weight values may differ. */
  predicate SameShape(a: Layer, b: Layer) {
    && a.inputWidth == b.inputWidth
    && a.outputWidth == b.outputWidth
    && match (a.kind, b.kind)
       case (InputKind, InputKind) => true
       case (MappingKind(m), MappingKind(n)) => m == n
       case (FullyConnectedKind(_), FullyConnectedKind(_)) => true
       case (OutputKind(_), OutputKind(_)) => true
       case _ => false
  }

  /** The base-class forward step: remember the first `inputWidth` inputs and the
      first `outputWidth` outputs; nothing else about the layer changes. */
  function CacheForward(l: Layer, input: seq<real>, output: seq<real>): (r: Layer)
    requires Valid(l) && l.inputWidth <= |input| && l.outputWidth <= |output|
    ensures Valid(r) && SameShape(l, r) && r.kind == l.kind
    ensures forall i :: 0 <= i < l.inputWidth ==> r.lastInput[i] == input[i]
    ensures forall i :: 0 <= i < l.outputWidth ==> r.lastOutput[i] == output[i]
  {
    l.(lastInput := input[..l.inputWidth], lastOutput := output[..l.outputWidth])
  }

  /** A constructed layer and its `nextLayer` link (None stands for nullptr).
      A store lists the constructed layers in allocation order. */
  datatype Node = Node(layer: Layer, next: Option<nat>)

  /** Every layer is well formed, every link points at a later-built layer, and that
      layer's input width is the output width of the layer linking to it. */
  predicate StoreOk(s: seq<Node>) {
    && (forall k :: 0 <= k < |s| ==> Valid(s[k].layer))
    && (forall k :: 0 <= k < |s| && s[k].next.Some? ==> k < s[k].next.value < |s|)
    && (forall k {:trigger s[k].next} :: 0 <= k < |s| && s[k].next.Some? ==>
          s[s[k].next.value].layer.inputWidth == s[k].layer.outputWidth)
  }

  /** The width rule of the Layer constructor, as (input width, output width). With a
      predecessor the input width is inherited and the argument ignored; a root with a
      negative input width is rejected; a negative output width makes the allocation of
      the output cache fail. */
  function LayerWidths(s: seq<Node>, outputWidth: int, last: Option<nat>, inputWidth: int): (r: Result<(nat, nat)>)
    requires last.Some? ==> last.value < |s|
    ensures last.Some? ==> (r.Ok? <==> outputWidth >= 0)
    ensures last.Some? && r.Ok? ==> r.value == (s[last.value].layer.outputWidth, outputWidth)
    ensures last.None? ==> (r.Ok? <==> inputWidth >= 0 && outputWidth >= 0)
    ensures last.None? && r.Ok? ==> r.value == (inputWidth, outputWidth)
    ensures last.None? && inputWidth < 0 ==> r == Err(InvalidArgument)
    ensures (last.Some? || inputWidth >= 0) && outputWidth < 0 ==> r == Err(BadArrayNewLength)
  {
    if last.Some? then
      if outputWidth < 0 then Err(BadArrayNewLength)
      else Ok((s[last.value].layer.outputWidth, outputWidth))
    else if inputWidth < 0 then Err(InvalidArgument)
    else if outputWidth < 0 then Err(BadArrayNewLength)
    else Ok((inputWidth, outputWidth))
  }

  /** Links a new layer in: the predecessor's `nextLayer` now designates it, and its
      own `nextLayer` starts null. */
  function Attach(s: seq<Node>, l: Layer, last: Option<nat>): (r: seq<Node>)
    requires last.Some? ==> last.value < |s|
    ensures |r| == |s| + 1 && r[|s|] == Node(l, None)
    ensures last.Some? ==> r[last.value] == s[last.value].(next := Some(|s|))
    ensures forall k :: 0 <= k < |s| && last != Some(k) ==> r[k] == s[k]
  {
    var linked := if last.Some? then s[last.value := s[last.value].(next := Some(|s|))] else s;
    linked + [Node(l, None)]
  }

  /** Linking a well-formed layer whose input width matches its predecessor keeps the store well formed. */
  lemma AttachKeepsStoreOk(s: seq<Node>, l: Layer, last: Option<nat>)
    requires last.Some? ==> last.value < |s|
    ensures StoreOk(s) && Valid(l) && (last.Some? ==> l.inputWidth == s[last.value].layer.outputWidth)
            ==> StoreOk(Attach(s, l, last))
  {
    if StoreOk(s) && Valid(l) && (last.Some? ==> l.inputWidth == s[last.value].layer.outputWidth) {
      var r := Attach(s, l, last);
      forall k | 0 <= k < |r| && r[k].next.Some?
        ensures k < r[k].next.value < |r|
        ensures r[r[k].next.value].layer.inputWidth == r[k].layer.outputWidth
      {
        if last == Some(k) {
          assert r[k].next.value == |s|;
        } else {
          assert k < |s| && r[k] == s[k];
          assert r[s[k].next.value].layer == s[s[k].next.value].layer;
        }
      }
    }
  }

  /** A fresh layer of the given kind and widths, with freshly allocated caches, linked after `last`. */
  function NewLayer(s: seq<Node>, kind: Kind, widths: (nat, nat), last: Option<nat>, u: Uninit): (r: seq<Node>)
    requires last.Some? ==> last.value < |s|
    ensures |r| == |s| + 1 && r[|s|].next.None?
    ensures r[|s|].layer == Layer(kind, widths.0, widths.1, Alloc(widths.0, u), Alloc(widths.1, u))
    ensures last.Some? ==> r[last.value].next == Some(|s|) && r[last.value].layer == s[last.value].layer
    ensures forall k :: 0 <= k < |s| && last != Some(k) ==> r[k] == s[k]
  {
    Attach(s, Layer(kind, widths.0, widths.1, Alloc(widths.0, u), Alloc(widths.1, u)), last)
  }

  /** `getNextLayer`: the successor link, which designates a layer built later whose input width
      matches this layer's output width, or null. */
  function GetNextLayer(s: seq<Node>, k: nat): (r: Option<nat>)
    requires StoreOk(s) && k < |s|
    ensures r == s[k].next
    ensures r.Some? ==> k < r.value < |s| && s[r.value].layer.inputWidth == s[k].layer.outputWidth
  {
    s[k].next
  }

  /** Building a layer after layer `k` makes `getNextLayer` of `k` designate the new layer,
      whose own successor is null; every other layer keeps its successor. */
  lemma NewLayerIsNextLayer(s: seq<Node>, kind: Kind, widths: (nat, nat), k: nat, u: Uninit)
    requires StoreOk(s) && k < |s| && widths.0 == s[k].layer.outputWidth
    requires Valid(Layer(kind, widths.0, widths.1, Alloc(widths.0, u), Alloc(widths.1, u)))
    ensures StoreOk(NewLayer(s, kind, widths, Some(k), u))
    ensures GetNextLayer(NewLayer(s, kind, widths, Some(k), u), k) == Some(|s|)
    ensures GetNextLayer(NewLayer(s, kind, widths, Some(k), u), |s|).None?
    ensures forall j :: 0 <= j < |s| && j != k ==>
      GetNextLayer(NewLayer(s, kind, widths, Some(k), u), j) == GetNextLayer(s, j)
  {
    AttachKeepsStoreOk(s, Layer(kind, widths.0, widths.1, Alloc(widths.0, u), Alloc(widths.1, u)), Some(k));
  }
}

=== FILE: main_program.dfy ===
/** The program glue of main.cpp: the one-hot target encoder, the region oracle, the network
    built by `initializeNetwork`, the argmax classifier and success count of `testLayers`, and
    the error and scalar-loss functions handed to the trainer. */
module Program {
  import opened Errors
  import opened Vectors
  import opened Layers
  import opened InputLayers
  import opened FullyConnected
  import opened OutputLayers
  import opened Propagation

  const InputWidth: nat := 2
  const OutputWidth: nat := 2
  const InputXWidth: real := 3.0
  const InputYWidth: real := 1.0

  /** The first `count` slots hold the ±1 one-hot encoding of `index`. */
  ghost predicate OneHot(v: seq<real>, index: int, count: int)
    requires count <= |v|
  {
    && 0 <= index < count
    && forall i :: 0 <= i < count ==> v[i] == (if i == index then 1.0 else -1.0)
  }

  /** `setIndex(index, output, outputCount)`: rejects an index outside `[0, outputCount)`;
      otherwise writes the one-hot encoding of `index` into the first `outputCount` slots and
      returns `index`. */
  function SetIndex(index: int, output: seq<real>, count: int): (r: Result<(int, seq<real>)>)
    requires count <= |output|
    ensures r.Ok? <==> 0 <= index < count
    ensures r.Err? ==> r.error == InvalidArgument
    ensures r.Ok? ==> r.value.0 == index && |r.value.1| == |output| && OneHot(r.value.1, index, count)
    ensures r.Ok? ==> forall i :: count <= i < |output| ==> r.value.1[i] == output[i]
  {
    if index < 0 || index >= count then Err(InvalidArgument)
    else Ok((index, seq(|output|, (i: int) requires 0 <= i < |output| =>
                          if i < count then (if i == index then 1.0 else -1.0) else output[i])))
  }

  /** The ground-truth region: the open unit disc centred at (-2, 0). */
  predicate InRegion(x: real, y: real) {
    (x + 2.0) * (x + 2.0) + y * y < 1.0
  }

  /** The class `realFunction` assigns to a point: 0 inside the region, 1 outside. */
  function RegionClass(x: real, y: real): (c: int)
    ensures c == 0 || c == 1
    ensures c == 0 <==> InRegion(x, y)
  {
    if InRegion(x, y) then 0 else 1
  }

  /** `realFunction(input, iw, output, ow)`: the class of the point `(input[0], input[1])`,
      written one-hot into `output`; `setIndex` rejects it when `ow` has no slot for it. The
      input width `iw` is not read. */
  function RealFunction(input: seq<real>, iw: int, output: seq<real>, ow: int): (r: Result<(int, seq<real>)>)
    requires |input| >= 2 && ow <= |output|
    ensures r.Ok? <==> RegionClass(input[0], input[1]) < ow
    ensures r.Err? ==> r.error == InvalidArgument
    ensures r.Ok? ==> && r.value.0 == RegionClass(input[0], input[1])
                      && (r.value.0 == 0 <==> InRegion(input[0], input[1]))
                      && |r.value.1| == |output| && OneHot(r.value.1, r.value.0, ow)
  {
    var x, y := input[0], input[1];
    if InRegion(x, y) then SetIndex(0, output, ow) else SetIndex(1, output, ow)
  }

  /** State of the argmax loop after some slots: the best index and the running maximum. */
  datatype Best = Best(index: nat, value: real)

  /** The argmax loop over the first `n` slots: starts at index 0 with maximum -1 and moves to
      slot `j` only when `v[j]` is strictly greater than the running maximum. */
  function ArgMaxScan(v: seq<real>, n: nat): (b: Best)
    requires n <= |v|
    ensures b.value >= -1.0 && (forall j :: 0 <= j < n ==> v[j] <= b.value)
    ensures b.value == -1.0 ==> b.index == 0
    ensures b.value > -1.0 ==> b.index < n && v[b.index] == b.value && forall j :: 0 <= j < b.index ==> v[j] < b.value
  {
    if n == 0 then Best(0, -1.0)
    else
      var b := ArgMaxScan(v, n - 1);
      if v[n - 1] > b.value then Best(n - 1, v[n - 1]) else b
  }

  /** The classifier of `testLayers`: the first slot among the first `width` holding the
      largest value, provided that value exceeds -1; slot 0 otherwise. */
  function ArgMax(v: seq<real>, width: nat): (r: nat)
    requires width <= |v|
    ensures (forall j :: 0 <= j < width ==> v[j] <= -1.0) ==> r == 0
    ensures (exists j :: 0 <= j < width && v[j] > -1.0) ==>
              && r < width && v[r] > -1.0
              && (forall j :: 0 <= j < r ==> v[j] < v[r])
              && (forall j :: r < j < width ==> v[j] <= v[r])
  {
    ArgMaxScan(v, width).index
  }

  /** Decoding an encoded target gives back its index. */
  lemma ArgMaxOfOneHot(v: seq<real>, index: int, count: nat)
    requires count <= |v| && OneHot(v, index, count)
    ensures ArgMax(v, count) == index
  {
    assert v[index] > -1.0;
  }

  /** `setIndex` followed by the argmax classifier is the identity on valid indices. */
  lemma SetIndexThenArgMax(index: int, output: seq<real>, count: nat)
    requires count <= |output| && 0 <= index < count
    ensures SetIndex(index, output, count).Ok?
    ensures ArgMax(SetIndex(index, output, count).value.1, count) == index
  {
    ArgMaxOfOneHot(SetIndex(index, output, count).value.1, index, count);
  }

  /** The elementwise error lambda: `output[i] - expected[i]` for every `i < width`. */
  function ErrorVector(output: seq<real>, expected: seq<real>, width: nat): (r: seq<real>)
    requires width <= |output| && width <= |expected|
    ensures |r| == width
    ensures forall i :: 0 <= i < width ==> output[i] == expected[i] + r[i]
  {
    seq(width, (i: int) requires 0 <= i < width => output[i] - expected[i])
  }

  /** The scalar-loss lambda: the sum of the squares of the first `width` error values. */
  function ScalarError(err: seq<real>, width: nat): (r: real)
    requires width <= |err|
    ensures r >= 0.0
  {
    if width == 0 then 0.0 else ScalarError(err, width - 1) + err[width - 1] * err[width - 1]
  }

  /** An all-zero error has zero loss. */
  lemma {:induction false} ZeroErrorHasZeroLoss(err: seq<real>, width: nat)
    requires width <= |err|
    requires forall i :: 0 <= i < width ==> err[i] == 0.0
    ensures ScalarError(err, width) == 0.0
  {
    if width > 0 {
      ZeroErrorHasZeroLoss(err, width - 1);
    }
  }

  /** An output that matches the target on every covered slot has zero loss. */
  lemma OnTargetHasZeroLoss(output: seq<real>, expected: seq<real>, width: nat)
    requires width <= |output| && width <= |expected|
    requires forall i :: 0 <= i < width ==> output[i] == expected[i]
    ensures ScalarError(ErrorVector(output, expected, width), width) == 0.0
  {
    ZeroErrorHasZeroLoss(ErrorVector(output, expected, width), width);
  }

  /** `path` is a walk along the successor links of the store that starts at `root` and stops
      at a layer without a successor. */
  ghost predicate IsChain(store: seq<Node>, root: nat, path: seq<nat>) {
    && |path| > 0 && path[0] == root
    && (forall i :: 0 <= i < |path| ==> path[i] < |store|)
    && (forall i :: 0 <= i < |path| - 1 ==> store[path[i]].next == Some(path[i + 1]))
    && store[path[|path| - 1]].next.None?
  }

  /** The positions reached from `k` by following successor links until a layer has none. */
  ghost function Walk(store: seq<Node>, k: nat): (path: seq<nat>)
    requires StoreOk(store) && k < |store|
    ensures |path| > 0 && path[0] == k
    ensures forall i :: 0 <= i < |path| ==> k <= path[i] < |store|
    ensures forall i :: 0 < i < |path| ==> path[i - 1] < path[i]
    decreases |store| - k
  {
    if store[k].next.None? then [k] else [k] + Walk(store, store[k].next.value)
  }

  /** The walk is a chain: it follows the links and stops at the last layer. */
  lemma {:induction false} WalkIsChain(store: seq<Node>, k: nat)
    requires StoreOk(store) && k < |store|
    ensures IsChain(store, k, Walk(store, k))
    decreases |store| - k
  {
    if store[k].next.Some? {
      var next := store[k].next.value;
      WalkIsChain(store, next);
      var rest := Walk(store, next);
      var path := Walk(store, k);
      assert path == [k] + rest;
      forall i | 0 <= i < |path| - 1
        ensures store[path[i]].next == Some(path[i + 1])
      {
        if i > 0 {
          assert path[i] == rest[i - 1] && path[i + 1] == rest[i];
        }
      }
    }
  }

  /** A chain ends exactly at its first layer without a successor. */
  lemma ChainStops(store: seq<Node>, root: nat, path: seq<nat>, n: nat)
    requires IsChain(store, root, path) && 0 < n <= |path| && store[path[n - 1]].next.None?
    ensures n == |path|
  {
    forall i | 0 <= i < |path| - 1
      ensures store[path[i]].next.Some?
    {
      assert store[path[i]].next == Some(path[i + 1]);
    }
  }

  /** Before its end, a chain continues with the successor of its current layer. */
  lemma ChainContinues(store: seq<Node>, root: nat, path: seq<nat>, n: nat)
    requires IsChain(store, root, path) && 0 < n <= |path| && store[path[n - 1]].next.Some?
    ensures n < |path| && path[n] == store[path[n - 1]].next.value
  {
  }

  /** The layers stored at the given positions, in order. */
  function LayersAt(store: seq<Node>, path: seq<nat>): (r: seq<Layer>)
    requires forall i :: 0 <= i < |path| ==> path[i] < |store|
    ensures |r| == |path| && forall i :: 0 <= i < |path| ==> r[i] == store[path[i]].layer
  {
    if path == [] then [] else LayersAt(store, path[..|path| - 1]) + [store[path[|path| - 1]].layer]
  }

  /** Consecutive layers of a walk satisfy the chain-width invariant. */
  lemma WalkWidths(store: seq<Node>, k: nat)
    requires StoreOk(store) && k < |store|
    ensures var layers := LayersAt(store, Walk(store, k));
            forall i :: 0 < i < |layers| ==> layers[i].inputWidth == layers[i - 1].outputWidth
  {
    WalkIsChain(store, k);
    var path := Walk(store, k);
    var layers := LayersAt(store, path);
    forall i | 0 < i < |layers|
      ensures layers[i].inputWidth == layers[i - 1].outputWidth
    {
      assert store[path[i - 1]].next == Some(path[i]);
    }
  }

  /** The chain walk of `initializeNetwork`: from the root, append each successor returned by
      `getNextLayer` until there is none. The collected vector lists the layers in link order,
      so adjacent layers satisfy the chain-width invariant. */
  method CollectChain(store: seq<Node>, root: nat) returns (layers: seq<Layer>, path: seq<nat>)
    requires StoreOk(store) && root < |store|
    ensures path == Walk(store, root)
    ensures layers == LayersAt(store, path)
    ensures forall i :: 0 < i < |layers| ==> layers[i].inputWidth == layers[i - 1].outputWidth
  {
    ghost var walk := Walk(store, root);
    WalkIsChain(store, root);
    var last := root;
    layers, path := [store[root].layer], [root];
    while true
      invariant 0 < |path| <= |walk| && last == walk[|path| - 1]
      invariant forall i :: 0 <= i < |path| ==> path[i] == walk[i]
      invariant layers == LayersAt(store, path)
      decreases |store| - last
    {
      var current := GetNextLayer(store, last);
      if current.None? {
        ChainStops(store, root, walk, |path|);
        assert path == walk;
        break;
      }
      ChainContinues(store, root, walk, |path|);
      ghost var before := path;
      layers, path := layers + [store[current.value].layer], path + [current.value];
      assert path[..|path| - 1] == before;
      last := current.value;
    }
    WalkWidths(store, root);
  }

  /** The first two constructor calls of `initializeNetwork` on an empty store: a mapping
      input layer over the two coordinates with four registered features, then a
      fully-connected layer of width 6 built on it, drawing the first 42 `rand1` values.
      Returns the store and the number of draws made. */
  function BuildFront(rand: nat -> real, u: Uninit): (r: (seq<Node>, nat))
    ensures var s := r.0;
            && |s| == 2 && StoreOk(s) && r.1 == 42
            && s[0].next == Some(1) && s[1].next.None?
            && s[0].layer.kind == MappingKind([0, 1, 2, 3])
            && s[0].layer.inputWidth == 2 && s[0].layer.outputWidth == 6
            && s[1].layer.kind == FullyConnectedKind(InitialParams(6, 6, rand, 0))
            && s[1].layer.inputWidth == 6 && s[1].layer.outputWidth == 6
  {
    var s0 := NewMappingLayer([], InputWidth, [0, 1, 2, 3], u).value;
    NewFullyConnected(s0, 6, Some(0), rand, 0, u).value
  }

  /** The four constructor calls of `initializeNetwork`: after the first two, a second
      fully-connected layer of width 6 and an output layer of width `OutputWidth`, each built
      on the previous one and drawing its weights from `rand1` after the previous one. */
  function BuildNetwork(rand: nat -> real, u: Uninit): (s: seq<Node>)
    ensures |s| == 4 && StoreOk(s)
    ensures s[0].next == Some(1) && s[1].next == Some(2) && s[2].next == Some(3) && s[3].next.None?
    ensures s[0].layer.kind == MappingKind([0, 1, 2, 3])
    ensures s[0].layer.inputWidth == 2 && s[0].layer.outputWidth == 6
    ensures s[1].layer.kind == FullyConnectedKind(InitialParams(6, 6, rand, 0))
    ensures s[1].layer.inputWidth == 6 && s[1].layer.outputWidth == 6
    ensures s[2].layer.kind == FullyConnectedKind(InitialParams(6, 6, rand, 42))
    ensures s[2].layer.inputWidth == 6 && s[2].layer.outputWidth == 6
    ensures s[3].layer.kind == OutputKind(InitialParams(6, 2, rand, 84))
    ensures s[3].layer.inputWidth == 6 && s[3].layer.outputWidth == 2
  {
    var front := BuildFront(rand, u);
    var r2 := NewFullyConnected(front.0, 6, Some(1), rand, front.1, u).value;
    var r3 := NewOutputLayer(r2.0, OutputWidth, Some(2), rand, r2.1, u).value;
    r3.0
  }

  /** A well-formed store of four layers linked 0 -> 1 -> 2 -> 3: a mapping input layer,
      two fully-connected layers and an output layer. */
  ghost predicate FourLayerStore(s: seq<Node>) {
    && |s| == 4 && StoreOk(s)
    && s[0].next == Some(1) && s[1].next == Some(2) && s[2].next == Some(3) && s[3].next.None?
    && s[0].layer.kind.MappingKind? && s[1].layer.kind.FullyConnectedKind?
    && s[2].layer.kind.FullyConnectedKind? && s[3].layer.kind.OutputKind?
  }

  /** The chain walk on such a store visits the four layers in link order, and the vector it
      yields can be trained. */
  method CollectFour(s: seq<Node>) returns (layers: seq<Layer>)
    requires FourLayerStore(s)
    ensures |layers| == 4 && Runnable(layers)
    ensures forall k :: 0 <= k < 4 ==> layers[k] == s[k].layer
  {
    var path;
    layers, path := CollectChain(s, 0);
    assert Walk(s, 3) == [3];
    assert Walk(s, 2) == [2, 3];
    assert Walk(s, 1) == [1, 2, 3];
    assert path == [0, 1, 2, 3];
    FourLayerStoreRunnable(s, layers);
  }

  /** The four layers of such a store, taken in link order, can be trained: each width matches
      its predecessor's and each hidden layer is followed by a trainable one. */
  lemma FourLayerStoreRunnable(s: seq<Node>, layers: seq<Layer>)
    requires FourLayerStore(s) && |layers| == 4
    requires forall k :: 0 <= k < 4 ==> layers[k] == s[k].layer
    ensures Runnable(layers)
  {
    forall k: nat | k < 4
      ensures ForwardLinkOk(layers, k) && BackwardLinkOk(layers, k)
    {
      assert Valid(s[k].layer);
      if 0 < k {
        assert s[k - 1].next == Some(k);
      }
    }
  }

  /** `initializeNetwork`: builds the network and collects it by the chain walk from the
      input layer, so the vector lists the four layers in construction order. */
  method InitializeNetwork(rand: nat -> real, u: Uninit) returns (layers: seq<Layer>)
    ensures |layers| == 4 && Runnable(layers)
    ensures forall k :: 0 <= k < 4 ==> layers[k] == BuildNetwork(rand, u)[k].layer
    ensures layers[0].kind.MappingKind? && layers[0].inputWidth == InputWidth && layers[0].outputWidth == 6
    ensures layers[1].kind.FullyConnectedKind? && layers[1].inputWidth == 6 && layers[1].outputWidth == 6
    ensures layers[2].kind.FullyConnectedKind? && layers[2].inputWidth == 6 && layers[2].outputWidth == 6
    ensures layers[3].kind.OutputKind? && layers[3].inputWidth == 6 && layers[3].outputWidth == OutputWidth
  {
    layers := CollectFour(BuildNetwork(rand, u));
  }

  /** A round of `testLayers` before the network runs: the generated point and the index the
      oracle `realFunction` gives it. */
  datatype TestCase = TestCase(input: seq<real>, expectedIndex: int)

  /** The first half of a round of `testLayers`: the point built from two `rand1` draws and its
      oracle index, which always fits the `OutputWidth` slots. */
  function GenerateCase(draw: (real, real), u: Uninit): (c: TestCase)
    ensures |c.input| == InputWidth
    ensures 0 <= c.expectedIndex < OutputWidth
  {
    var inputData := [draw.0 * InputXWidth, draw.1 * InputYWidth];
    var expected := RealFunction(inputData, InputWidth, Alloc(OutputWidth, u), OutputWidth);
    TestCase(inputData, expected.value.0)
  }

  /** A generated case holds the point `(a * InputXWidth, b * InputYWidth)` for the draws
      `(a, b)`, and its index is the class `realFunction` gives that point: 0 exactly inside
      the region. */
  lemma GenerateCaseFollowsOracle(draw: (real, real), u: Uninit)
    ensures GenerateCase(draw, u).input == [draw.0 * InputXWidth, draw.1 * InputYWidth]
    ensures GenerateCase(draw, u).expectedIndex == RegionClass(draw.0 * InputXWidth, draw.1 * InputYWidth)
  {
  }

  /** Every case holds a point of the network's input width. */
  predicate CasesFit(cases: seq<TestCase>) {
    forall i :: 0 <= i < |cases| ==> |cases[i].input| == InputWidth
  }

  /** A layer vector `testLayers` can run: a forward pass stays in bounds, the first layer reads
      within the generated point, and the last layer's output has a slot for every class. */
  ghost predicate Testable(ls: seq<Layer>) {
    ForwardRunnable(ls) && |ls| > 0 && ls[0].inputWidth <= InputWidth && OutputWidth <= ls[|ls| - 1].outputWidth
  }

  /** The network's class for a point: the argmax of the output of a forward pass. */
  function Classify(ls: seq<Layer>, input: seq<real>, act: Activation, eval: FeatureEval, u: Uninit): (c: nat)
    requires Testable(ls) && |input| == InputWidth
    ensures c < OutputWidth
  {
    var out := ForwardPass(ls, 0, input, act, eval, u).signal;
    ArgMax(out, OutputWidth)
  }

  /** Whether the network's class for a case is the oracle's index. */
  predicate Agrees(ls: seq<Layer>, c: TestCase, act: Activation, eval: FeatureEval, u: Uninit)
    requires Testable(ls) && |c.input| == InputWidth
  {
    Classify(ls, c.input, act, eval, u) == c.expectedIndex
  }

  /** The per-case verdicts for a sequence of cases. */
  function Verdicts(ls: seq<Layer>, cases: seq<TestCase>, act: Activation, eval: FeatureEval, u: Uninit): (r: seq<bool>)
    requires Testable(ls) && CasesFit(cases)
    ensures |r| == |cases| && forall i :: 0 <= i < |cases| ==> r[i] == Agrees(ls, cases[i], act, eval, u)
  {
    seq(|cases|, (i: int) requires 0 <= i < |cases| => Agrees(ls, cases[i], act, eval, u))
  }

  /** The number of `true` verdicts: all of them exactly when every verdict holds, none
      exactly when none does. */
  function CountTrue(bs: seq<bool>): (r: nat)
    ensures r <= |bs|
    ensures r == |bs| <==> forall i :: 0 <= i < |bs| ==> bs[i]
    ensures r == 0 <==> forall i :: 0 <= i < |bs| ==> !bs[i]
  {
    if |bs| == 0 then 0
    else
      var init := bs[..|bs| - 1];
      assert forall i :: 0 <= i < |init| ==> init[i] == bs[i];
      CountTrue(init) + (if bs[|bs| - 1] then 1 else 0)
  }

  /** Extending a prefix by one verdict raises the count by exactly one when that verdict holds,
      and not at all otherwise. */
  lemma CountTruePrefix(bs: seq<bool>, i: nat)
    requires i < |bs|
    ensures CountTrue(bs[..i + 1]) == CountTrue(bs[..i]) + (if bs[i] then 1 else 0)
  {
    assert bs[..i + 1][..i] == bs[..i];
  }

  /** Among the first `n` cases, the number of true verdicts is `n` exactly when the network
      classifies every case as the oracle does, and 0 exactly when it agrees on none. */
  lemma AgreementCount(ls: seq<Layer>, cases: seq<TestCase>, n: nat, act: Activation, eval: FeatureEval, u: Uninit)
    requires Testable(ls) && CasesFit(cases) && n <= |cases|
    ensures CountTrue(Verdicts(ls, cases, act, eval, u)[..n]) <= n
    ensures CountTrue(Verdicts(ls, cases, act, eval, u)[..n]) == n
            <==> forall i :: 0 <= i < n ==> Agrees(ls, cases[i], act, eval, u)
    ensures CountTrue(Verdicts(ls, cases, act, eval, u)[..n]) == 0
            <==> forall i :: 0 <= i < n ==> !Agrees(ls, cases[i], act, eval, u)
  {
    var verdicts := Verdicts(ls, cases, act, eval, u)[..n];
    assert forall i :: 0 <= i < n ==> verdicts[i] == Agrees(ls, cases[i], act, eval, u);
  }

  /** The second half of a round: forward through the layers and compare the argmax with the
      oracle's index. The forward step refreshes the caches only, so the verdict is the one the
      original layers give. */
  method TestOne(ls: seq<Layer>, current: seq<Layer>, c: TestCase, act: Activation, eval: FeatureEval, u: Uninit)
    returns (hit: bool, next: seq<Layer>)
    requires Testable(ls) && |current| == |ls| && ForwardRunnable(current) && |c.input| == InputWidth
    requires forall m :: 0 <= m < |ls| ==> SameParams(current[m], ls[m])
    ensures hit == Agrees(ls, c, act, eval, u)
    ensures |next| == |ls| && ForwardRunnable(next)
    ensures forall m :: 0 <= m < |ls| ==> SameParams(next[m], ls[m])
  {
    assert SameParams(current[0], ls[0]) && SameParams(current[|ls| - 1], ls[|ls| - 1]);
    var fwd := ForwardPass(current, 0, c.input, act, eval, u);
    var maxIndex := ArgMax(fwd.signal, OutputWidth);
    ForwardPassIgnoresCaches(current, ls, 0, c.input, act, eval, u);
    hit := maxIndex == c.expectedIndex;
    next := fwd.layers;
  }

  /** One round of the test loop over case `i`: a success count over the first `i` cases
      becomes the count over the first `i + 1`, and the layers keep their parameters. */
  method TestRound(ls: seq<Layer>, cases: seq<TestCase>, i: nat, running: seq<Layer>, successes: nat,
                   act: Activation, eval: FeatureEval, u: Uninit)
    returns (running': seq<Layer>, successes': nat)
    requires Testable(ls) && CasesFit(cases) && i < |cases|
    requires |running| == |ls| && ForwardRunnable(running)
    requires forall m :: 0 <= m < |ls| ==> SameParams(running[m], ls[m])
    ensures |running'| == |ls| && ForwardRunnable(running')
    ensures forall m :: 0 <= m < |ls| ==> SameParams(running'[m], ls[m])
    ensures successes == CountTrue(Verdicts(ls, cases, act, eval, u)[..i]) ==>
            successes' == CountTrue(Verdicts(ls, cases, act, eval, u)[..i + 1])
  {
    var hit;
    hit, running' := TestOne(ls, running, cases[i], act, eval, u);
    CountTruePrefix(Verdicts(ls, cases, act, eval, u), i);
    successes' := if hit then successes + 1 else successes;
  }

  /** The test loop of `testLayers` over the first `testTimes` cases. The success count rises by
      one exactly on the rounds where the argmax matches the oracle's index, so it counts the
      true verdicts among those cases (see `AgreementCount` for what that number says). */
  method TestLayers(ls: seq<Layer>, cases: seq<TestCase>, testTimes: nat, act: Activation, eval: FeatureEval, u: Uninit)
    returns (successes: nat)
    requires Testable(ls) && CasesFit(cases) && testTimes <= |cases|
    ensures successes == CountTrue(Verdicts(ls, cases, act, eval, u)[..testTimes])
  {
    successes := 0;
    var running := ls;
    var i := 0;
    while i < testTimes
      invariant i <= testTimes
      invariant |running| == |ls| && ForwardRunnable(running)
      invariant forall m :: 0 <= m < |ls| ==> SameParams(running[m], ls[m])
      invariant successes == CountTrue(Verdicts(ls, cases, act, eval, u)[..i])
    {
      running, successes := TestRound(ls, cases, i, running, successes, act, eval, u);
      i := i + 1;
    }
  }
}

=== FILE: output_layer.dfy ===
/** OutputLayer (layers/OutputLayer.h): a fully-connected layer whose backward step seeds
    its delta from the external error instead of a successor. */
module OutputLayers {
  import opened Errors
  import opened Vectors
  import opened Layers
  import opened FullyConnected

  /** `OutputLayer(out, last)`: built exactly like a fully-connected layer, and tagged as the
      output layer. */
  function NewOutputLayer(s: seq<Node>, outputWidth: int, last: Option<nat>, rand: nat -> real,
                          draws: nat, u: Uninit): (r: Result<(seq<Node>, nat)>)
    requires last.Some? ==> last.value < |s|
    ensures r.Ok? <==> last.Some? && outputWidth >= 0
    ensures last.None? ==> r == Err(InvalidArgument)
    ensures r.Ok? ==> |r.value.0| == |s| + 1 && r.value.0[|s|].layer.kind.OutputKind?
    ensures last.Some? && outputWidth < 0 ==> r == Err(BadArrayNewLength)
    ensures r.Ok? ==>
      var s' := r.value.0;
      var l := s'[|s|].layer;
      && s'[|s|].next.None?
      && s'[last.value].next == Some(|s|) && s'[last.value].layer == s[last.value].layer
      && (forall k :: 0 <= k < |s| && k != last.value ==> s'[k] == s[k])
      && l.inputWidth == s[last.value].layer.outputWidth && l.outputWidth == outputWidth
      && l.kind.params == InitialParams(l.inputWidth, l.outputWidth, rand, draws)
      && r.value.1 == draws + l.outputWidth * (l.inputWidth + 1)
    ensures r.Ok? && StoreOk(s) ==> StoreOk(r.value.0)
  {
    NewTrainable(s, outputWidth, last, rand, draws, u, true)
  }

  /** The delta seed: `error[i] * (1 - y_i^2)` for every output unit, with `y` the cached output. */
  function OutputDelta(l: Layer, error: seq<real>): (r: seq<real>)
    requires Valid(l) && l.outputWidth <= |error|
    ensures |r| == l.outputWidth
    ensures forall i :: 0 <= i < l.outputWidth ==> r[i] == error[i] * (1.0 - l.lastOutput[i] * l.lastOutput[i])
  {
    seq(l.outputWidth, (i: int) requires 0 <= i < l.outputWidth =>
          error[i] * (1.0 - l.lastOutput[i] * l.lastOutput[i]))
  }

  /** `OutputLayer::backwardPropagation`: fills the whole delta buffer from the error, then applies
      the fully-connected update with that delta and the cached input. It reads no other layer. */
  function OutputBackward(l: Layer, error: seq<real>, buf: seq<real>, lr: real): (r: Step)
    requires l.kind.OutputKind? && Valid(l) && |buf| == l.outputWidth && l.outputWidth <= |error|
    ensures Valid(r.layer) && SameShape(l, r.layer) && r.layer.kind.OutputKind?
    ensures r.layer.lastInput == l.lastInput && r.layer.lastOutput == l.lastOutput
    ensures |r.signal| == l.outputWidth
    ensures forall i :: 0 <= i < l.outputWidth ==>
              r.signal[i] == error[i] * (1.0 - l.lastOutput[i] * l.lastOutput[i])
    ensures r.layer.kind.params == Update(l.kind.params, r.signal, l.lastInput, lr, l.inputWidth, l.outputWidth)
  {
    var delta := OutputDelta(l, error);
    Step(l.(kind := OutputKind(Update(l.kind.params, delta, l.lastInput, lr, l.inputWidth, l.outputWidth))), delta)
  }

  /** A zero error leaves that unit's weight row and bias unchanged. */
  lemma ZeroErrorKeepsRow(l: Layer, error: seq<real>, buf: seq<real>, lr: real, i: nat)
    requires l.kind.OutputKind? && Valid(l) && |buf| == l.outputWidth && l.outputWidth <= |error|
    requires i < l.outputWidth && error[i] == 0.0
    ensures OutputBackward(l, error, buf, lr).layer.kind.params.weights[i] == l.kind.params.weights[i]
    ensures OutputBackward(l, error, buf, lr).layer.kind.params.bias[i] == l.kind.params.bias[i]
  {
    var r := OutputBackward(l, error, buf, lr);
    UpdateKeepsRowOfZeroDelta(l.kind.params, r.signal, l.lastInput, lr, l.inputWidth, l.outputWidth, i);
  }

  /** A unit whose cached output is saturated at exactly +1 or -1 gets a zero delta, so its
      weight row and bias are unchanged. */
  lemma SaturatedUnitKeepsRow(l: Layer, error: seq<real>, buf: seq<real>, lr: real, i: nat)
    requires l.kind.OutputKind? && Valid(l) && |buf| == l.outputWidth && l.outputWidth <= |error|
    requires i < l.outputWidth && (l.lastOutput[i] == 1.0 || l.lastOutput[i] == -1.0)
    ensures OutputBackward(l, error, buf, lr).signal[i] == 0.0
    ensures OutputBackward(l, error, buf, lr).layer.kind.params.weights[i] == l.kind.params.weights[i]
    ensures OutputBackward(l, error, buf, lr).layer.kind.params.bias[i] == l.kind.params.bias[i]
  {
    var r := OutputBackward(l, error, buf, lr);
    assert r.signal[i] == 0.0;
    UpdateKeepsRowOfZeroDelta(l.kind.params, r.signal, l.lastInput, lr, l.inputWidth, l.outputWidth, i);
  }
}

=== FILE: propagation.dfy ===
/** Virtual dispatch of the forward and backward steps over the four layer classes, and the
    passes that thread buffers through a layer vector (train/SimpleTrainer.h, main.cpp). */
module Propagation {
  import opened Errors
  import opened Vectors
  import opened Layers
  import opened InputLayers
  import opened FullyConnected
  import opened OutputLayers

  /** What a forward call needs to stay inside its buffers: `input` holds at least `inputWidth`
      values and `buf` is a fresh output buffer of `outputWidth`; a plain input layer writes
      `inputWidth` values into it. */
  predicate CanForward(l: Layer, input: seq<real>, buf: seq<real>) {
    && Valid(l)
    && l.inputWidth <= |input|
    && |buf| == l.outputWidth
    && (l.kind.InputKind? ==> l.inputWidth <= l.outputWidth)
  }

  /** `forwardPropagation`, dispatched on the layer's class. It never changes the parameters
      or the widths; every class but the plain input layer caches its input and output. */
  function Forward(l: Layer, input: seq<real>, buf: seq<real>, act: Activation, eval: FeatureEval): (r: Step)
    requires CanForward(l, input, buf)
    ensures Valid(r.layer) && |r.signal| == l.outputWidth
    ensures r.layer.kind == l.kind && r.layer.inputWidth == l.inputWidth && r.layer.outputWidth == l.outputWidth
    ensures !l.Caches() ==> r.layer == l
    ensures l.Caches() ==> r.layer.lastInput == input[..l.inputWidth] && r.layer.lastOutput == r.signal
  {
    match l.kind
    case InputKind => Step(l, InputForward(l, input, buf))
    case MappingKind(_) => MappingForward(l, input, eval)
    case FullyConnectedKind(_) => FullyConnectedForward(l, input, act)
    case OutputKind(_) => FullyConnectedForward(l, input, act)
  }

  /** The output of a forward step depends on the layer's class, widths and parameters only,
      never on what its caches held before. */
  lemma ForwardIgnoresCaches(a: Layer, b: Layer, input: seq<real>, buf: seq<real>, act: Activation, eval: FeatureEval)
    requires CanForward(a, input, buf) && CanForward(b, input, buf)
    requires a.kind == b.kind && a.inputWidth == b.inputWidth && a.outputWidth == b.outputWidth
    ensures Forward(a, input, buf, act, eval).signal == Forward(b, input, buf, act, eval).signal
  {
  }

  /** What a backward call needs: a fresh delta buffer of `outputWidth`; a hidden
      fully-connected layer needs a trainable successor whose input width fits this layer and
      whose delta is in `signal`; an output layer needs `outputWidth` error values. */
  predicate CanBackward(l: Layer, next: Option<Layer>, signal: seq<real>, buf: seq<real>) {
    && Valid(l)
    && |buf| == l.outputWidth
    && (l.kind.FullyConnectedKind? ==>
          && next.Some? && next.value.Trainable() && Valid(next.value)
          && next.value.inputWidth <= l.outputWidth && next.value.outputWidth <= |signal|)
    && (l.kind.OutputKind? ==> l.outputWidth <= |signal|)
  }

  /** `backwardPropagation`, dispatched on the layer's class: the input layers do nothing, the
      trainable ones update their parameters. Widths, classes and caches never change. */
  function Backward(l: Layer, next: Option<Layer>, signal: seq<real>, buf: seq<real>, lr: real): (r: Step)
    requires CanBackward(l, next, signal, buf)
    ensures Valid(r.layer) && SameShape(l, r.layer)
    ensures r.layer.lastInput == l.lastInput && r.layer.lastOutput == l.lastOutput
    ensures |r.signal| == |buf|
    ensures !l.Trainable() ==> r == Step(l, buf)
  {
    match l.kind
    case InputKind => Step(l, buf)
    case MappingKind(_) => Step(l, buf)
    case FullyConnectedKind(_) => FullyConnectedBackward(l, next.value, signal, buf, lr)
    case OutputKind(_) => OutputBackward(l, signal, buf, lr)
  }

  /** A trainable layer's backward step is the gradient-descent update of its parameters by the
      delta it returns and its cached input, whichever of the two trainable classes it is. */
  lemma BackwardUpdates(l: Layer, next: Option<Layer>, signal: seq<real>, buf: seq<real>, lr: real)
    requires CanBackward(l, next, signal, buf) && l.Trainable()
    ensures var r := Backward(l, next, signal, buf, lr);
      r.layer.kind.params == Update(l.kind.params, r.signal, l.lastInput, lr, l.inputWidth, l.outputWidth)
  {
  }

  /** What layer `k` of a vector needs for a forward step: it is well formed, its input width
      is its predecessor's output width (the chain-width invariant), and a plain input layer
      does not write past its output buffer. */
  predicate ForwardLinkOk(ls: seq<Layer>, k: nat)
    requires k < |ls|
  {
    && Valid(ls[k])
    && (ls[k].kind.InputKind? ==> ls[k].inputWidth <= ls[k].outputWidth)
    && (0 < k ==> ls[k].inputWidth == ls[k - 1].outputWidth)
  }

  /** What layer `k` needs in addition for a backward step: a hidden fully-connected layer has a
      trainable successor, and an output layer that is not last gets a signal at least as wide
      as its own output. */
  predicate BackwardLinkOk(ls: seq<Layer>, k: nat)
    requires k < |ls|
  {
    && (ls[k].kind.FullyConnectedKind? ==> k + 1 < |ls| && ls[k + 1].Trainable())
    && (0 < k && ls[k - 1].kind.OutputKind? ==> ls[k - 1].outputWidth <= ls[k].outputWidth)
  }

  /** Everything layer `k` needs for every step of a training pass. */
  predicate LinkOk(ls: seq<Layer>, k: nat)
    requires k < |ls|
  {
    ForwardLinkOk(ls, k) && BackwardLinkOk(ls, k)
  }

  /** Every layer of the vector satisfies `ForwardLinkOk`: a forward pass stays in bounds. */
  predicate ForwardRunnable(ls: seq<Layer>) {
    forall k: nat :: k < |ls| ==> ForwardLinkOk(ls, k)
  }

  /** Every layer of the vector satisfies `ForwardLinkOk` and `BackwardLinkOk`: a whole training
      pass stays in bounds. */
  predicate Runnable(ls: seq<Layer>) {
    ForwardRunnable(ls) && forall k: nat :: k < |ls| ==> BackwardLinkOk(ls, k)
  }

  /** Every layer keeps its shape. */
  predicate SameShapes(a: seq<Layer>, b: seq<Layer>) {
    |a| == |b| && forall m :: 0 <= m < |a| ==> SameShape(a[m], b[m])
  }

  /** Runnability depends on the shapes only. */
  lemma RunnableByShape(a: seq<Layer>, b: seq<Layer>)
    requires Runnable(a) && SameShapes(a, b)
    requires forall m :: 0 <= m < |b| ==> Valid(b[m])
    ensures Runnable(b)
  {
    ForwardRunnableByShape(a, b);
    forall k: nat | k < |b|
      ensures BackwardLinkOk(b, k)
    {
      assert BackwardLinkOk(a, k);
      assert SameShape(a[k], b[k]);
      if k + 1 < |a| {
        assert SameShape(a[k + 1], b[k + 1]);
      }
      if 0 < k {
        assert SameShape(a[k - 1], b[k - 1]);
      }
    }
  }

  /** Forward runnability depends on the shapes only. */
  lemma ForwardRunnableByShape(a: seq<Layer>, b: seq<Layer>)
    requires ForwardRunnable(a) && SameShapes(a, b)
    requires forall m :: 0 <= m < |b| ==> Valid(b[m])
    ensures ForwardRunnable(b)
  {
    forall k: nat | k < |b|
      ensures ForwardLinkOk(b, k)
    {
      assert ForwardLinkOk(a, k);
      assert SameShape(a[k], b[k]);
      if 0 < k {
        assert SameShape(a[k - 1], b[k - 1]);
      }
    }
  }

  /** Replacing one layer by a well-formed layer of the same shape keeps a vector runnable. */
  lemma ReplaceKeepsRunnable(ls: seq<Layer>, k: nat, l: Layer)
    requires Runnable(ls) && k < |ls| && Valid(l) && SameShape(ls[k], l)
    ensures Runnable(ls[k := l]) && SameShapes(ls, ls[k := l])
  {
    ReplaceKeepsLinks(ls, k, l);
  }

  /** Replacing one layer by a well-formed layer of the same shape keeps a vector forward
      runnable, and runnable when it was. */
  lemma ReplaceKeepsLinks(ls: seq<Layer>, k: nat, l: Layer)
    requires ForwardRunnable(ls) && k < |ls| && Valid(l) && SameShape(ls[k], l)
    ensures ForwardRunnable(ls[k := l]) && SameShapes(ls, ls[k := l])
    ensures Runnable(ls) ==> Runnable(ls[k := l])
  {
    var b := ls[k := l];
    forall m | 0 <= m < |b|
      ensures Valid(b[m])
    {
      assert ForwardLinkOk(ls, m);
    }
    ForwardRunnableByShape(ls, b);
    if Runnable(ls) {
      RunnableByShape(ls, b);
    }
  }

  lemma SameShapesTransitive(a: seq<Layer>, b: seq<Layer>, c: seq<Layer>)
    requires SameShapes(a, b) && SameShapes(b, c)
    ensures SameShapes(a, c)
  {
    forall m | 0 <= m < |a|
      ensures SameShape(a[m], c[m])
    {
      assert SameShape(a[m], b[m]) && SameShape(b[m], c[m]);
    }
  }

  /** The backward step of layer `k-1` inside a runnable vector, given the signal of layer `k`
      (or the error, when `k` is the vector's length) and a fresh delta buffer. */
  function BackwardAt(ls: seq<Layer>, k: nat, signal: seq<real>, lr: real, u: Uninit): (r: Step)
    requires Runnable(ls) && 0 < k <= |ls|
    requires k < |ls| ==> |signal| == ls[k].outputWidth
    requires k == |ls| ==> ls[k - 1].outputWidth <= |signal|
    ensures Valid(r.layer) && SameShape(ls[k - 1], r.layer)
    ensures r.layer.lastInput == ls[k - 1].lastInput && r.layer.lastOutput == ls[k - 1].lastOutput
    ensures |r.signal| == ls[k - 1].outputWidth
    ensures !ls[k - 1].Trainable() ==> r.layer == ls[k - 1]
  {
    var l := ls[k - 1];
    assert LinkOk(ls, k - 1);
    assert k < |ls| ==> LinkOk(ls, k);
    Backward(l, if k < |ls| then Some(ls[k]) else None, signal, Alloc(l.outputWidth, u), lr)
  }

  /** Layers, the signal left in hand, the order in which the layers were visited and, in the
      same order, the buffer each visited layer received. */
  datatype Pass = Pass(layers: seq<Layer>, signal: seq<real>, visited: seq<nat>, inputs: seq<seq<real>>)

  /** Same class, widths and parameters: only the caches may differ. */
  predicate SameParams(a: Layer, b: Layer) {
    a.kind == b.kind && a.inputWidth == b.inputWidth && a.outputWidth == b.outputWidth
  }

  /** The forward loop from layer `k` on: each layer gets a fresh buffer of its output width,
      and the filled buffer is the next layer's input. Only caches change. */
  function ForwardPass(ls: seq<Layer>, k: nat, input: seq<real>, act: Activation, eval: FeatureEval, u: Uninit): (r: Pass)
    requires ForwardRunnable(ls) && k <= |ls|
    requires k < |ls| ==> ls[k].inputWidth <= |input|
    ensures |r.layers| == |ls| && ForwardRunnable(r.layers)
    ensures Runnable(ls) ==> Runnable(r.layers)
    ensures forall m :: 0 <= m < |ls| ==> SameParams(r.layers[m], ls[m])
    ensures k < |ls| ==> |r.signal| == ls[|ls| - 1].outputWidth
    decreases |ls| - k
  {
    if k == |ls| then Pass(ls, input, [], [])
    else
      assert ForwardLinkOk(ls, k) && (k + 1 < |ls| ==> ForwardLinkOk(ls, k + 1));
      var step := Forward(ls[k], input, Alloc(ls[k].outputWidth, u), act, eval);
      var ls' := ls[k := step.layer];
      ReplaceKeepsLinks(ls, k, step.layer);
      var rest := ForwardPass(ls', k + 1, step.signal, act, eval, u);
      Pass(rest.layers, rest.signal, [k] + rest.visited, [input] + rest.inputs)
  }

  /** The backward loop over layers `k-1` down to 0, with `signal` the delta of layer `k` (or the
      error when `k` is the vector's length). Each layer gets a fresh buffer of its output width
      and its successor in the state the successor's own backward step left it; the filled buffer
      becomes the signal for the preceding layer. Shapes are kept. */
  function BackwardPass(ls: seq<Layer>, k: nat, signal: seq<real>, lr: real, u: Uninit): (r: Pass)
    requires Runnable(ls) && k <= |ls|
    requires k < |ls| ==> |signal| == ls[k].outputWidth
    requires 0 < k == |ls| ==> ls[k - 1].outputWidth <= |signal|
    ensures Runnable(r.layers) && SameShapes(ls, r.layers)
    ensures 0 < k ==> |r.signal| == ls[0].outputWidth
    decreases k
  {
    if k == 0 then Pass(ls, signal, [], [])
    else
      var step := BackwardAt(ls, k, signal, lr, u);
      var ls' := ls[k - 1 := step.layer];
      ReplaceKeepsRunnable(ls, k - 1, step.layer);
      var rest := BackwardPass(ls', k - 1, step.signal, lr, u);
      SameShapesTransitive(ls, ls', rest.layers);
      Pass(rest.layers, rest.signal, [k - 1] + rest.visited, [signal] + rest.inputs)
  }

  /** The forward pass calls the layers in vector order, once each. */
  lemma {:induction false} ForwardPassVisitsInOrder(ls: seq<Layer>, k: nat, input: seq<real>, act: Activation, eval: FeatureEval, u: Uninit)
    requires ForwardRunnable(ls) && k <= |ls|
    requires k < |ls| ==> ls[k].inputWidth <= |input|
    ensures ForwardPass(ls, k, input, act, eval, u).visited == Ascending(k, |ls|)
    decreases |ls| - k
  {
    if k < |ls| {
      assert ForwardLinkOk(ls, k) && (k + 1 < |ls| ==> ForwardLinkOk(ls, k + 1));
      var step := Forward(ls[k], input, Alloc(ls[k].outputWidth, u), act, eval);
      ReplaceKeepsLinks(ls, k, step.layer);
      ForwardPassVisitsInOrder(ls[k := step.layer], k + 1, step.signal, act, eval, u);
    }
  }

  /** The forward pass from `k` leaves the layers before `k` alone. */
  lemma {:induction false} ForwardPassKeepsPrefix(ls: seq<Layer>, k: nat, input: seq<real>, act: Activation, eval: FeatureEval, u: Uninit)
    requires ForwardRunnable(ls) && k <= |ls|
    requires k < |ls| ==> ls[k].inputWidth <= |input|
    ensures forall m :: 0 <= m < k ==> ForwardPass(ls, k, input, act, eval, u).layers[m] == ls[m]
    decreases |ls| - k
  {
    if k < |ls| {
      assert ForwardLinkOk(ls, k) && (k + 1 < |ls| ==> ForwardLinkOk(ls, k + 1));
      var step := Forward(ls[k], input, Alloc(ls[k].outputWidth, u), act, eval);
      ReplaceKeepsLinks(ls, k, step.layer);
      ForwardPassKeepsPrefix(ls[k := step.layer], k + 1, step.signal, act, eval, u);
    }
  }

  /** The first layer of the pass, when it caches, caches the pass's input. */
  lemma ForwardPassCachesInput(ls: seq<Layer>, k: nat, input: seq<real>, act: Activation, eval: FeatureEval, u: Uninit)
    requires ForwardRunnable(ls) && k < |ls| && ls[k].inputWidth <= |input| && ls[k].Caches()
    ensures ForwardPass(ls, k, input, act, eval, u).layers[k].lastInput == input[..ls[k].inputWidth]
  {
    assert ForwardLinkOk(ls, k) && (k + 1 < |ls| ==> ForwardLinkOk(ls, k + 1));
    var step := Forward(ls[k], input, Alloc(ls[k].outputWidth, u), act, eval);
    ReplaceKeepsLinks(ls, k, step.layer);
    ForwardPassKeepsPrefix(ls[k := step.layer], k + 1, step.signal, act, eval, u);
  }

  /** The first link of the forward pass: when layer `k` and its successor both cache, the
      successor cached as input exactly what layer `k` cached as output. */
  lemma ForwardPassThreadsFirst(ls: seq<Layer>, k: nat, input: seq<real>, act: Activation, eval: FeatureEval, u: Uninit)
    requires ForwardRunnable(ls) && k + 1 < |ls| && ls[k].inputWidth <= |input|
    requires ls[k].Caches() && ls[k + 1].Caches()
    ensures var r := ForwardPass(ls, k, input, act, eval, u);
      r.layers[k + 1].lastInput == r.layers[k].lastOutput
  {
    assert ForwardLinkOk(ls, k) && ForwardLinkOk(ls, k + 1);
    var step := Forward(ls[k], input, Alloc(ls[k].outputWidth, u), act, eval);
    var ls' := ls[k := step.layer];
    ReplaceKeepsLinks(ls, k, step.layer);
    ForwardPassKeepsPrefix(ls', k + 1, step.signal, act, eval, u);
    ForwardPassCachesInput(ls', k + 1, step.signal, act, eval, u);
    assert step.signal[..ls[k + 1].inputWidth] == step.signal;
  }

  /** Buffer threading of the forward pass, seen in the caches: each caching layer caches as
      input exactly what its caching predecessor cached as output. */
  lemma {:induction false} ForwardPassThreadsBuffers(ls: seq<Layer>, k: nat, input: seq<real>, act: Activation, eval: FeatureEval, u: Uninit)
    requires ForwardRunnable(ls) && k <= |ls|
    requires k < |ls| ==> ls[k].inputWidth <= |input|
    ensures var r := ForwardPass(ls, k, input, act, eval, u);
      forall m :: k < m < |ls| && ls[m - 1].Caches() && ls[m].Caches() ==>
        r.layers[m].lastInput == r.layers[m - 1].lastOutput
    decreases |ls| - k
  {
    if k < |ls| {
      assert ForwardLinkOk(ls, k) && (k + 1 < |ls| ==> ForwardLinkOk(ls, k + 1));
      var step := Forward(ls[k], input, Alloc(ls[k].outputWidth, u), act, eval);
      var ls' := ls[k := step.layer];
      ReplaceKeepsLinks(ls, k, step.layer);
      var r := ForwardPass(ls, k, input, act, eval, u);
      assert r.layers == ForwardPass(ls', k + 1, step.signal, act, eval, u).layers;
      ForwardPassThreadsBuffers(ls', k + 1, step.signal, act, eval, u);
      if k + 1 < |ls| && ls[k].Caches() && ls[k + 1].Caches() {
        ForwardPassThreadsFirst(ls, k, input, act, eval, u);
      }
      forall m | k + 1 < m < |ls| && ls[m - 1].Caches() && ls[m].Caches()
        ensures r.layers[m].lastInput == r.layers[m - 1].lastOutput
      {
        assert ls'[m - 1] == ls[m - 1] && ls'[m] == ls[m];
      }
    }
  }

  /** The buffer a forward pass ends with is what the last layer, when it caches, cached as output. */
  lemma {:induction false} ForwardPassEndsWithLastCache(ls: seq<Layer>, k: nat, input: seq<real>, act: Activation, eval: FeatureEval, u: Uninit)
    requires ForwardRunnable(ls) && k < |ls| && ls[k].inputWidth <= |input| && ls[|ls| - 1].Caches()
    ensures ForwardPass(ls, k, input, act, eval, u).signal == ForwardPass(ls, k, input, act, eval, u).layers[|ls| - 1].lastOutput
    decreases |ls| - k
  {
    assert ForwardLinkOk(ls, k) && (k + 1 < |ls| ==> ForwardLinkOk(ls, k + 1));
    var step := Forward(ls[k], input, Alloc(ls[k].outputWidth, u), act, eval);
    ReplaceKeepsLinks(ls, k, step.layer);
    if k + 1 < |ls| {
      ForwardPassEndsWithLastCache(ls[k := step.layer], k + 1, step.signal, act, eval, u);
    }
  }

  /** The backward pass calls layers `k-1` down to 0, each once, in reverse vector order. */
  lemma {:induction false} BackwardPassVisitsInReverse(ls: seq<Layer>, k: nat, signal: seq<real>, lr: real, u: Uninit)
    requires Runnable(ls) && k <= |ls|
    requires k < |ls| ==> |signal| == ls[k].outputWidth
    requires 0 < k == |ls| ==> ls[k - 1].outputWidth <= |signal|
    ensures BackwardPass(ls, k, signal, lr, u).visited == Descending(k)
    decreases k
  {
    if k > 0 {
      var step := BackwardAt(ls, k, signal, lr, u);
      ReplaceKeepsRunnable(ls, k - 1, step.layer);
      BackwardPassVisitsInReverse(ls[k - 1 := step.layer], k - 1, step.signal, lr, u);
    }
  }

  /** The backward pass changes parameters only: caches are kept, layers from `k` on are
      untouched, and the untrained input layers are untouched. */
  lemma {:induction false} BackwardPassChangesOnlyParams(ls: seq<Layer>, k: nat, signal: seq<real>, lr: real, u: Uninit)
    requires Runnable(ls) && k <= |ls|
    requires k < |ls| ==> |signal| == ls[k].outputWidth
    requires 0 < k == |ls| ==> ls[k - 1].outputWidth <= |signal|
    ensures var r := BackwardPass(ls, k, signal, lr, u);
      && (forall m :: 0 <= m < |ls| ==>
            r.layers[m].lastInput == ls[m].lastInput && r.layers[m].lastOutput == ls[m].lastOutput)
      && (forall m :: k <= m < |ls| ==> r.layers[m] == ls[m])
      && (forall m :: 0 <= m < |ls| && !ls[m].Trainable() ==> r.layers[m] == ls[m])
    decreases k
  {
    if k > 0 {
      var step := BackwardAt(ls, k, signal, lr, u);
      var ls' := ls[k - 1 := step.layer];
      ReplaceKeepsRunnable(ls, k - 1, step.layer);
      BackwardPassChangesOnlyParams(ls', k - 1, step.signal, lr, u);
      var r := BackwardPass(ls, k, signal, lr, u);
      assert r.layers == BackwardPass(ls', k - 1, step.signal, lr, u).layers;
      forall m | 0 <= m < |ls|
        ensures r.layers[m].lastInput == ls[m].lastInput && r.layers[m].lastOutput == ls[m].lastOutput
        ensures k <= m ==> r.layers[m] == ls[m]
        ensures !ls[m].Trainable() ==> r.layers[m] == ls[m]
      {
        if m == k - 1 {
          assert ls'[m] == step.layer;
        } else {
          assert ls'[m] == ls[m];
        }
      }
    }
  }

  /** The output of a forward pass depends on the layers' classes, widths and parameters only:
      two vectors that differ in their caches alone produce the same output. */
  lemma {:induction false} ForwardPassIgnoresCaches(a: seq<Layer>, b: seq<Layer>, k: nat, input: seq<real>, act: Activation, eval: FeatureEval, u: Uninit)
    requires ForwardRunnable(a) && ForwardRunnable(b) && |a| == |b| && k <= |a|
    requires forall m :: 0 <= m < |a| ==> SameParams(a[m], b[m])
    requires k < |a| ==> a[k].inputWidth <= |input| && b[k].inputWidth <= |input|
    ensures ForwardPass(a, k, input, act, eval, u).signal == ForwardPass(b, k, input, act, eval, u).signal
    decreases |a| - k
  {
    if k < |a| {
      assert ForwardLinkOk(a, k) && ForwardLinkOk(b, k) && (k + 1 < |a| ==> ForwardLinkOk(a, k + 1) && ForwardLinkOk(b, k + 1));
      assert SameParams(a[k], b[k]);
      var buf := Alloc(a[k].outputWidth, u);
      var sa := Forward(a[k], input, buf, act, eval);
      var sb := Forward(b[k], input, buf, act, eval);
      ForwardIgnoresCaches(a[k], b[k], input, buf, act, eval);
      ReplaceKeepsLinks(a, k, sa.layer);
      ReplaceKeepsLinks(b, k, sb.layer);
      ForwardPassIgnoresCaches(a[k := sa.layer], b[k := sb.layer], k + 1, sa.signal, act, eval, u);
    }
  }

  /** Layer `m` of a forward pass from `k` received the buffer `r.inputs[m-k]`, ended the pass as
      its own forward step on that buffer and a fresh output buffer left it, and handed the
      filled buffer on: to layer `m+1`, or out of the pass when it is the last layer. */
  predicate ForwardStepped(ls: seq<Layer>, k: nat, r: Pass, m: nat, act: Activation, eval: FeatureEval, u: Uninit) {
    && k <= m < |ls| && |r.layers| == |ls| && |r.inputs| == |ls| - k
    && var buf := Alloc(ls[m].outputWidth, u);
       && CanForward(ls[m], r.inputs[m - k], buf)
       && var step := Forward(ls[m], r.inputs[m - k], buf, act, eval);
          && r.layers[m] == step.layer
          && (m + 1 < |ls| ==> r.inputs[m + 1 - k] == step.signal)
          && (m + 1 == |ls| ==> r.signal == step.signal)
  }

  /** A forward step recorded by the pass from `k+1` stays recorded once the input of layer `k`
      is put in front of the received buffers. */
  lemma ForwardSteppedShift(ls: seq<Layer>, ls': seq<Layer>, k: nat, r: Pass, rest: Pass, input: seq<real>, m: nat, act: Activation, eval: FeatureEval, u: Uninit)
    requires k < m < |ls| && |ls'| == |ls| && ls'[m] == ls[m]
    requires r.layers == rest.layers && r.signal == rest.signal && r.inputs == [input] + rest.inputs
    requires ForwardStepped(ls', k + 1, rest, m, act, eval, u)
    ensures ForwardStepped(ls, k, r, m, act, eval, u)
  {
  }

  /** The first step of a forward pass from `k`, as the pass records it. */
  lemma {:induction false} ForwardPassStepsFirst(ls: seq<Layer>, k: nat, input: seq<real>, act: Activation, eval: FeatureEval, u: Uninit)
    requires ForwardRunnable(ls) && k < |ls| && ls[k].inputWidth <= |input|
    ensures ForwardStepped(ls, k, ForwardPass(ls, k, input, act, eval, u), k, act, eval, u)
    decreases |ls| - k, 0
  {
    assert ForwardLinkOk(ls, k) && (k + 1 < |ls| ==> ForwardLinkOk(ls, k + 1));
    var buf := Alloc(ls[k].outputWidth, u);
    var step := Forward(ls[k], input, buf, act, eval);
    var ls' := ls[k := step.layer];
    ReplaceKeepsLinks(ls, k, step.layer);
    var rest := ForwardPass(ls', k + 1, step.signal, act, eval, u);
    var r := ForwardPass(ls, k, input, act, eval, u);
    assert r == Pass(rest.layers, rest.signal, [k] + rest.visited, [input] + rest.inputs);
    ForwardPassAppliesEachLayer(ls', k + 1, step.signal, act, eval, u);
    ForwardPassKeepsPrefix(ls', k + 1, step.signal, act, eval, u);
    assert r.inputs[0] == input;
    assert r.layers[k] == ls'[k] == step.layer;
    assert k + 1 < |ls| ==> r.inputs[1] == step.signal;
  }

  /** The forward pass applies every layer's own forward step: the first layer receives the
      pass's input, and each later layer receives the buffer its predecessor filled. */
  lemma {:induction false} ForwardPassAppliesEachLayer(ls: seq<Layer>, k: nat, input: seq<real>, act: Activation, eval: FeatureEval, u: Uninit)
    requires ForwardRunnable(ls) && k <= |ls|
    requires k < |ls| ==> ls[k].inputWidth <= |input|
    ensures var r := ForwardPass(ls, k, input, act, eval, u);
      && |r.inputs| == |ls| - k
      && (k < |ls| ==> r.inputs[0] == input)
      && (forall m: nat :: k <= m < |ls| ==> ForwardStepped(ls, k, r, m, act, eval, u))
    decreases |ls| - k, 1
  {
    if k < |ls| {
      assert ForwardLinkOk(ls, k) && (k + 1 < |ls| ==> ForwardLinkOk(ls, k + 1));
      var step := Forward(ls[k], input, Alloc(ls[k].outputWidth, u), act, eval);
      var ls' := ls[k := step.layer];
      ReplaceKeepsLinks(ls, k, step.layer);
      var rest := ForwardPass(ls', k + 1, step.signal, act, eval, u);
      var r := ForwardPass(ls, k, input, act, eval, u);
      assert r == Pass(rest.layers, rest.signal, [k] + rest.visited, [input] + rest.inputs);
      ForwardPassAppliesEachLayer(ls', k + 1, step.signal, act, eval, u);
      ForwardPassStepsFirst(ls, k, input, act, eval, u);
      forall m: nat | k < m < |ls|
        ensures ForwardStepped(ls, k, r, m, act, eval, u)
      {
        ForwardSteppedShift(ls, ls', k, r, rest, input, m, act, eval, u);
      }
    }
  }

  /** Layer `m` of a backward pass over layers `k-1` down to 0 received the signal
      `r.inputs[k-1-m]` and ended the pass as its own backward step left it, taken against its
      successor as that successor ended the pass (none for the last layer) and a fresh delta
      buffer; the filled buffer went to layer `m-1`, or out of the pass for layer 0. */
  predicate BackwardStepped(ls: seq<Layer>, k: nat, r: Pass, m: nat, lr: real, u: Uninit) {
    && m < k <= |ls| && |r.layers| == |ls| && |r.inputs| == k
    && var next := if m + 1 < |ls| then Some(r.layers[m + 1]) else None;
       var buf := Alloc(ls[m].outputWidth, u);
       && CanBackward(ls[m], next, r.inputs[k - 1 - m], buf)
       && var step := Backward(ls[m], next, r.inputs[k - 1 - m], buf, lr);
          && r.layers[m] == step.layer
          && (0 < m ==> r.inputs[k - m] == step.signal)
          && (m == 0 ==> r.signal == step.signal)
  }

  /** A backward step recorded by the pass that starts one layer lower stays recorded once the
      signal of layer `k-1` is put in front of the received buffers. */
  lemma BackwardSteppedShift(ls: seq<Layer>, ls': seq<Layer>, k: nat, r: Pass, rest: Pass, signal: seq<real>, m: nat, lr: real, u: Uninit)
    requires 0 < k <= |ls| && m < k - 1 && |ls'| == |ls| && ls'[m] == ls[m]
    requires r.layers == rest.layers && r.signal == rest.signal && r.inputs == [signal] + rest.inputs
    requires BackwardStepped(ls', k - 1, rest, m, lr, u)
    ensures BackwardStepped(ls, k, r, m, lr, u)
  {
  }

  /** The first step of a backward pass over layers `k-1` down to 0, as the pass records it. */
  lemma {:induction false} BackwardPassStepsFirst(ls: seq<Layer>, k: nat, signal: seq<real>, lr: real, u: Uninit)
    requires Runnable(ls) && 0 < k <= |ls|
    requires k < |ls| ==> |signal| == ls[k].outputWidth
    requires k == |ls| ==> ls[k - 1].outputWidth <= |signal|
    ensures BackwardStepped(ls, k, BackwardPass(ls, k, signal, lr, u), k - 1, lr, u)
    decreases k, 1
  {
    BackwardPassRecordsFirst(ls, k, signal, lr, u);
    assert LinkOk(ls, k - 1) && (k < |ls| ==> LinkOk(ls, k));
  }

  /** What the pass from `k` records about layer `k-1`: it received the pass's signal, it ends
      the pass as `BackwardAt` leaves it, its successor is untouched, and its filled delta is the
      next received buffer, or the pass's final signal when `k-1` is layer 0. */
  lemma {:induction false} BackwardPassRecordsFirst(ls: seq<Layer>, k: nat, signal: seq<real>, lr: real, u: Uninit)
    requires Runnable(ls) && 0 < k <= |ls|
    requires k < |ls| ==> |signal| == ls[k].outputWidth
    requires k == |ls| ==> ls[k - 1].outputWidth <= |signal|
    ensures var r := BackwardPass(ls, k, signal, lr, u);
      var step := BackwardAt(ls, k, signal, lr, u);
      && |r.layers| == |ls| && |r.inputs| == k && r.inputs[0] == signal
      && r.layers[k - 1] == step.layer
      && (k < |ls| ==> r.layers[k] == ls[k])
      && (1 < k ==> r.inputs[1] == step.signal)
      && (k == 1 ==> r.signal == step.signal)
    decreases k, 0
  {
    var step := BackwardAt(ls, k, signal, lr, u);
    var ls' := ls[k - 1 := step.layer];
    ReplaceKeepsRunnable(ls, k - 1, step.layer);
    var rest := BackwardPass(ls', k - 1, step.signal, lr, u);
    var r := BackwardPass(ls, k, signal, lr, u);
    assert r == Pass(rest.layers, rest.signal, [k - 1] + rest.visited, [signal] + rest.inputs);
    BackwardPassChangesOnlyParams(ls', k - 1, step.signal, lr, u);
    BackwardPassStepsEachLayer(ls', k - 1, step.signal, lr, u);
  }

  /** The backward pass applies every layer's own backward step: layer `k-1` receives the pass's
      signal (the error, when `k` is the vector's length), each earlier layer receives the delta
      its successor filled, and reads that successor's updated parameters. */
  lemma {:induction false} BackwardPassStepsEachLayer(ls: seq<Layer>, k: nat, signal: seq<real>, lr: real, u: Uninit)
    requires Runnable(ls) && k <= |ls|
    requires k < |ls| ==> |signal| == ls[k].outputWidth
    requires 0 < k == |ls| ==> ls[k - 1].outputWidth <= |signal|
    ensures var r := BackwardPass(ls, k, signal, lr, u);
      && |r.inputs| == k
      && (0 < k ==> r.inputs[0] == signal)
      && (forall m: nat :: m < k ==> BackwardStepped(ls, k, r, m, lr, u))
    decreases k, 2
  {
    if k > 0 {
      var step := BackwardAt(ls, k, signal, lr, u);
      var ls' := ls[k - 1 := step.layer];
      ReplaceKeepsRunnable(ls, k - 1, step.layer);
      var rest := BackwardPass(ls', k - 1, step.signal, lr, u);
      var r := BackwardPass(ls, k, signal, lr, u);
      assert r == Pass(rest.layers, rest.signal, [k - 1] + rest.visited, [signal] + rest.inputs);
      BackwardPassStepsEachLayer(ls', k - 1, step.signal, lr, u);
      BackwardPassStepsFirst(ls, k, signal, lr, u);
      forall m: nat | m < k - 1
        ensures BackwardStepped(ls, k, r, m, lr, u)
      {
        BackwardSteppedShift(ls, ls', k, r, rest, signal, m, lr, u);
      }
    }
  }
}

=== FILE: simple_trainer.dfy ===
/** SimpleTrainer (train/SimpleTrainer.h): repeated forward pass, in-place error, reverse
    backward pass over a vector of layers. */
module SimpleTrainer {
  import opened Vectors
  import opened Layers
  import opened Propagation

  /** The trainer's constant configuration. */
  datatype Config = Config(inputWidth: int, outputWidth: int, learningRate: real, trainingTimes: int)

  /** The injected error function: given the network output and the expected output, the
      values it writes over the output buffer. */
  type ErrorFunction = (seq<real>, seq<real>) -> seq<real>

  /** The injected ground-truth function: the expected output for an input. */
  type Oracle = seq<real> -> seq<real>

  /** The error function writes at least `width` values. */
  ghost predicate ErrorFits(errorFn: ErrorFunction, width: int) {
    forall o, e :: width <= |errorFn(o, e)|
  }

  /** The in-place error step: the first `width` slots of the output buffer are overwritten by
      the error values, the others keep the network output. */
  function ApplyError(output: seq<real>, error: seq<real>, width: int): (r: seq<real>)
    requires width <= |output| && width <= |error|
    ensures |r| == |output|
    ensures forall i :: 0 <= i < |r| && i < width ==> r[i] == error[i]
    ensures forall i :: 0 <= i < |r| && width <= i ==> r[i] == output[i]
  {
    seq(|output|, (i: int) requires 0 <= i < |output| => if i < width then error[i] else output[i])
  }

  /** What one iteration needs: a runnable vector whose first layer reads within the generated
      input and whose last layer's output buffer holds the error the error function writes. */
  ghost predicate StepReady(cfg: Config, ls: seq<Layer>, sample: seq<real>, errorFn: ErrorFunction) {
    && Runnable(ls) && |ls| > 0
    && ls[0].inputWidth <= |sample|
    && cfg.outputWidth <= ls[|ls| - 1].outputWidth
    && ErrorFits(errorFn, cfg.outputWidth)
  }

  /** One iteration of `startTraining` on a generated sample: forward through the layers in
      vector order, overwrite the output with the error, then backward through the layers in
      reverse order starting from that error. Shapes are kept, so the vector stays runnable. */
  function TrainStep(cfg: Config, ls: seq<Layer>, sample: seq<real>, oracle: Oracle, errorFn: ErrorFunction,
                     act: Activation, eval: FeatureEval, u: Uninit): (r: seq<Layer>)
    requires StepReady(cfg, ls, sample, errorFn)
    ensures Runnable(r) && SameShapes(ls, r)
  {
    var expected := oracle(sample);
    var fwd := ForwardPass(ls, 0, sample, act, eval, u);
    assert SameParams(fwd.layers[|ls| - 1], ls[|ls| - 1]);
    var err := ApplyError(fwd.signal, errorFn(fwd.signal, expected), cfg.outputWidth);
    var bwd := BackwardPass(fwd.layers, |ls|, err, cfg.learningRate, u);
    assert SameShapes(ls, fwd.layers) by {
      forall m | 0 <= m < |ls|
        ensures SameShape(ls[m], fwd.layers[m])
      {
        assert SameParams(fwd.layers[m], ls[m]);
      }
    }
    SameShapesTransitive(ls, fwd.layers, bwd.layers);
    bwd.layers
  }

  /** One iteration is the forward pass followed by the backward pass seeded with the in-place
      error: every layer takes its own forward step in vector order, starting from the sample;
      the last layer's backward step receives the output buffer overwritten by the error; and
      every layer takes its own backward step in reverse order against its updated successor. */
  lemma TrainStepPropagates(cfg: Config, ls: seq<Layer>, sample: seq<real>, oracle: Oracle, errorFn: ErrorFunction,
                            act: Activation, eval: FeatureEval, u: Uninit)
    requires StepReady(cfg, ls, sample, errorFn)
    ensures var fwd := ForwardPass(ls, 0, sample, act, eval, u);
      && fwd.inputs[0] == sample
      && (forall m: nat :: m < |ls| ==> ForwardStepped(ls, 0, fwd, m, act, eval, u))
      && SameParams(fwd.layers[|ls| - 1], ls[|ls| - 1])
      && var err := ApplyError(fwd.signal, errorFn(fwd.signal, oracle(sample)), cfg.outputWidth);
         var bwd := BackwardPass(fwd.layers, |ls|, err, cfg.learningRate, u);
         && bwd.inputs[0] == err
         && (forall m: nat :: m < |ls| ==> BackwardStepped(fwd.layers, |ls|, bwd, m, cfg.learningRate, u))
         && TrainStep(cfg, ls, sample, oracle, errorFn, act, eval, u) == bwd.layers
  {
    var fwd := ForwardPass(ls, 0, sample, act, eval, u);
    ForwardPassAppliesEachLayer(ls, 0, sample, act, eval, u);
    assert SameParams(fwd.layers[|ls| - 1], ls[|ls| - 1]);
    var err := ApplyError(fwd.signal, errorFn(fwd.signal, oracle(sample)), cfg.outputWidth);
    BackwardPassStepsEachLayer(fwd.layers, |ls|, err, cfg.learningRate, u);
  }

  /** Every generated sample fills the trainer's input buffer, and the layer vector fits the
      trainer's widths. */
  ghost predicate TrainReady(cfg: Config, ls: seq<Layer>, samples: seq<seq<real>>, errorFn: ErrorFunction) {
    && Runnable(ls) && |ls| > 0
    && ls[0].inputWidth <= cfg.inputWidth
    && cfg.outputWidth <= ls[|ls| - 1].outputWidth
    && ErrorFits(errorFn, cfg.outputWidth)
    && cfg.trainingTimes <= |samples|
    && forall j :: 0 <= j < |samples| ==> |samples[j]| == cfg.inputWidth
  }

  /** The number of iterations `startTraining` runs: `trainingTimes`, or none when that is not positive. */
  function Iterations(cfg: Config): (n: nat)
    ensures cfg.trainingTimes > 0 ==> n == cfg.trainingTimes
    ensures cfg.trainingTimes <= 0 ==> n == 0
  {
    if cfg.trainingTimes > 0 then cfg.trainingTimes else 0
  }

  /** The layers after the first `n` iterations, iteration `j` using generated sample `j`. */
  function Iterate(cfg: Config, ls: seq<Layer>, samples: seq<seq<real>>, n: nat, oracle: Oracle,
                   errorFn: ErrorFunction, act: Activation, eval: FeatureEval, u: Uninit): (r: seq<Layer>)
    requires TrainReady(cfg, ls, samples, errorFn) && n <= |samples|
    ensures Runnable(r) && SameShapes(ls, r)
    decreases n, 0
  {
    if n == 0 then ls else Iteration(cfg, ls, samples, n - 1, oracle, errorFn, act, eval, u)
  }

  /** Iteration `j`: one training step on generated sample `j`, applied to the layers left by
      the first `j` iterations. */
  function Iteration(cfg: Config, ls: seq<Layer>, samples: seq<seq<real>>, j: nat, oracle: Oracle,
                     errorFn: ErrorFunction, act: Activation, eval: FeatureEval, u: Uninit): (r: seq<Layer>)
    requires TrainReady(cfg, ls, samples, errorFn) && j < |samples|
    ensures Runnable(r) && SameShapes(ls, r)
    decreases j, 1
  {
    var before := Iterate(cfg, ls, samples, j, oracle, errorFn, act, eval, u);
    assert SameShape(ls[0], before[0]) && SameShape(ls[|ls| - 1], before[|ls| - 1]);
    var after := TrainStep(cfg, before, samples[j], oracle, errorFn, act, eval, u);
    SameShapesTransitive(ls, before, after);
    after
  }

  /** After `n` iterations the layers are ready for iteration `n` on sample `n`, and that
      iteration yields the layers after `n + 1` iterations. */
  lemma IterateStep(cfg: Config, ls: seq<Layer>, samples: seq<seq<real>>, n: nat, oracle: Oracle,
                    errorFn: ErrorFunction, act: Activation, eval: FeatureEval, u: Uninit)
    requires TrainReady(cfg, ls, samples, errorFn) && n < |samples|
    ensures StepReady(cfg, Iterate(cfg, ls, samples, n, oracle, errorFn, act, eval, u), samples[n], errorFn)
    ensures Iterate(cfg, ls, samples, n + 1, oracle, errorFn, act, eval, u)
         == TrainStep(cfg, Iterate(cfg, ls, samples, n, oracle, errorFn, act, eval, u), samples[n],
                      oracle, errorFn, act, eval, u)
  {
    var before := Iterate(cfg, ls, samples, n, oracle, errorFn, act, eval, u);
    assert SameShape(ls[0], before[0]) && SameShape(ls[|ls| - 1], before[|ls| - 1]);
  }

  /** The body of the training loop: iteration `j` on generated sample `j`. */
  method TrainOnce(cfg: Config, ls: seq<Layer>, samples: seq<seq<real>>, j: nat, trained: seq<Layer>,
                   oracle: Oracle, errorFn: ErrorFunction, act: Activation, eval: FeatureEval, u: Uninit)
    returns (next: seq<Layer>)
    requires TrainReady(cfg, ls, samples, errorFn) && j < |samples|
    requires trained == Iterate(cfg, ls, samples, j, oracle, errorFn, act, eval, u)
    ensures next == Iterate(cfg, ls, samples, j + 1, oracle, errorFn, act, eval, u)
  {
    IterateStep(cfg, ls, samples, j, oracle, errorFn, act, eval, u);
    next := TrainStep(cfg, trained, samples[j], oracle, errorFn, act, eval, u);
  }

  /** `startTraining`: runs exactly `Iterations(cfg)` iterations, one per generated sample in
      order, and returns the trained layers; the configuration is never changed and only the
      layers carry state from one iteration to the next. */
  method StartTraining(cfg: Config, ls: seq<Layer>, samples: seq<seq<real>>, oracle: Oracle,
                       errorFn: ErrorFunction, act: Activation, eval: FeatureEval, u: Uninit)
    returns (trained: seq<Layer>)
    requires TrainReady(cfg, ls, samples, errorFn)
    ensures trained == Iterate(cfg, ls, samples, Iterations(cfg), oracle, errorFn, act, eval, u)
    ensures Runnable(trained) && SameShapes(ls, trained)
    ensures cfg.trainingTimes <= 0 ==> trained == ls
  {
    trained := ls;
    var n := Iterations(cfg);
    assert n <= |samples|;
    var j := 0;
    while j < n
      invariant j <= n <= |samples|
      invariant trained == Iterate(cfg, ls, samples, j, oracle, errorFn, act, eval, u)
    {
      trained := TrainOnce(cfg, ls, samples, j, trained, oracle, errorFn, act, eval, u);
      j := j + 1;
    }
  }
}

=== FILE: vectors.dfy ===
/** Buffers of doubles as sequences of reals, and the sums the layers accumulate. */
module Vectors {

  /** The indeterminate contents of a freshly allocated `double` buffer: slot `i` holds `u(i)`. */
  type Uninit = nat -> real

  /** A fresh buffer of `n` doubles, as returned by `new double[n]`. */
  function Alloc(n: nat, u: Uninit): (r: seq<real>)
    ensures |r| == n
    ensures forall i :: 0 <= i < n ==> r[i] == u(i)
  {
    seq(n, (i: int) requires 0 <= i < n => u(i))
  }

  /** The dot product of the first `n` entries of `a` and `b`, accumulated from index 0 upwards. */
  function Dot(a: seq<real>, b: seq<real>, n: nat): real
    requires n <= |a| && n <= |b|
  {
    if n == 0 then 0.0 else Dot(a, b, n - 1) + a[n - 1] * b[n - 1]
  }

  /** Column `j` of a matrix stored as a sequence of rows. */
  function Column(w: seq<seq<real>>, j: nat): (c: seq<real>)
    requires forall i :: 0 <= i < |w| ==> j < |w[i]|
    ensures |c| == |w|
    ensures forall i :: 0 <= i < |w| ==> c[i] == w[i][j]
  {
    seq(|w|, (i: int) requires 0 <= i < |w| => w[i][j])
  }

  /** The indices lo, lo+1, ..., hi-1 in increasing order. */
  function Ascending(lo: nat, hi: nat): (r: seq<nat>)
    ensures |r| == if lo <= hi then hi - lo else 0
    ensures forall i :: 0 <= i < |r| ==> r[i] == lo + i
    decreases hi - lo
  {
    if lo >= hi then [] else [lo] + Ascending(lo + 1, hi)
  }

  /** The indices k-1, k-2, ..., 0 in decreasing order. */
  function Descending(k: nat): (r: seq<nat>)
    ensures |r| == k
    ensures forall i :: 0 <= i < k ==> r[i] == k - 1 - i
  {
    if k == 0 then [] else [k - 1] + Descending(k - 1)
  }
}
